=== FILE: README.md ===
# stm32f0-debugger core, modelled in Dafny

The firmware is a debug bridge on an STM32F0. A USB-serial console takes
typed command lines (`help`, `servo <angle>`, `lidar <payload>`). A Slamtec
RPLIDAR sensor is driven over a second serial link. Two per-byte state
machines do the work. Each one is fed from a single-slot receive mailbox
that an interrupt fills, and the main loop polls both in turn:

- the **console line framer** (`USB_check`, usb_debug.c) splits a line at
  its first space into a command name and a value;
- the **sensor response decoder** (`LIDAR_process`, lidar.c) assembles the
  7-byte response descriptor and then the payload, and routes a completed
  response by the request outstanding.

A carriage return hands the line to `USB_process`, then to
`USB_process_message`, then to the command handlers (commands.c). Those
handlers gate servo angles, list commands and send sensor requests
(`LIDAR_REQ_*`). The 1 ms system tick counts down the wait after a stop
or reset request. Both of those requests get no reply from the sensor.

Everything is modelled as immutable records and pure step functions that
return the new state and a list of output events. Text the firmware
prints is abstracted to events that carry the decoded fields. Actuator
calls are events too: a servo angle, a motor switch, a request frame on
the sensor link. A call from lidar.c into `USB_reset_command` is the
event `ResetCommandLine`, which the main-loop model applies to the
console. A byte the C code stores outside a token buffer or past
`DATA_RESPONSE` is not stored. It is reported as an `StrayWrite` or
`Overrun` event instead. Overflows inside text formatting are not
modelled; they are listed under "Left out".

| file | module | what it holds |
|---|---|---|
| bytes.dfy | `Bytes` | bytes as 0..255, `uint32_t` increment with wrap-around, `response_info` as four byte lanes |
| cstr.dfy | `CStr` | NUL-terminated strings held in buffers, `tolower`, in-place lower-casing |
| usart.dfy | `Usart` | the single-slot receive mailbox (last write wins) |
| timer.dfy | `Timer` | `SysTick_Handler`'s countdown |
| events.dfy | `Events` | everything the firmware does to the outside world |
| streams.dfy | `Streams` | a generic run of a per-input step function, and how runs split |
| lidar.dfy | `Lidar` | lidar.c state, `LIDAR_REQ_*`, `LIDAR_process`, completion routing |
| lidar_responses.dfy | `LidarResponses` | `LIDAR_RES_scan/get_info/get_health/get_samplerate` as decoders |
| lidar_frames.dfy | `LidarFrames` | whole responses fed byte by byte through the decoder |
| commands.dfy | `Commands` | `COMMAND_LIST`, `LIDAR_LIST`, `COMMAND_servo/lidar/help` |
| console.dfy | `Console` | `USB_check`, `USB_process`, `USB_reset_command`, `USB_process_message` |
| debugger.dfy | `Debugger` | the main loop, the receive interrupts and the tick put together |

## Model

| member | source | states |
|---|---|---|
| Bytes.Inc32 | stm32f0-debugger/Src/lidar.c:170-173 | `byte_count++` on an `unsigned`: one more, modulo 2^32 |
| Bytes.OrByte | stm32f0-debugger/Src/lidar.c:153-164 | `lane \|= byte` as an 8-bit bitwise or of the two bytes; or-ing into a lane that is still zero stores exactly that byte |
| CStr.Str | stm32f0-debugger/Src/usb_debug.c:182-193 | the string `strcmp` sees is the buffer up to, not including, the first NUL; it holds no NUL |
| CStr.Lower | stm32f0-debugger/Src/usb_debug.c:179-180 | in-place lower-casing changes exactly the bytes before the first NUL, each by `tolower` |
| CStr.LowerStr | stm32f0-debugger/Src/commands.c:63-64 | the string a lower-cased buffer holds is the old string with every byte lower-cased |
| Usart.Take | stm32f0-debugger/Src/usb_debug.c:53-56 | the consumer clears the pending flag and the byte stays readable |
| Usart.Deliver | stm32f0-debugger/Src/usart.c:21-39 | a receive interrupt leaves the mailbox pending with exactly the byte received |
| Usart.DeliverOverwrites | stm32f0-debugger/Src/usart.c:21-39 | a second byte before the first is taken replaces it; the first is lost |
| Timer.Tick | stm32f0-debugger/Src/stm32f0xx_it.c:51-55 | a tick lowers a positive timer by exactly one and never goes below zero |
| Timer.TicksSaturate | stm32f0-debugger/Src/stm32f0xx_it.c:51-55 | `k` ticks from `t` leave `max(0, t - k)` |
| Lidar.DeclaredLength | stm32f0-debugger/Src/lidar.c:176 | the declared payload length is `response_info & 0x3FFFFFFF`, below 2^30 |
| Lidar.Request | stm32f0-debugger/Src/lidar.c:307-481 | each request sends exactly `[0xA5, op]`, records `op`, zeroes the count and keeps descriptor and data. Stop and reset arm the wait (1 and 2 ticks) and reset the command line; no other request touches the wait. Only stop empties the mailbox |
| Lidar.RequestIdempotent | stm32f0-debugger/Src/lidar.c:307-481 | sending the same request twice leaves the state one send leaves |
| Lidar.TicksOnlyMoveTimer | stm32f0-debugger/Src/stm32f0xx_it.c:51-55 | ticks move only the timer, to `max(0, t - k)`; `lidar_timing` stays as it was |
| Lidar.OnTick | stm32f0-debugger/Src/stm32f0xx_it.c:51-55 | one tick changes only `lidar_timer`: down by one when positive, kept at zero otherwise; `lidar_timing` is not touched |
| Lidar.Process | stm32f0-debugger/Src/lidar.c:116-137 | an expired stop/reset wait is acknowledged once and consumes no byte; an expired wait for any other request changes nothing; without a pending byte nothing changes; otherwise the byte is taken and the request and wait are kept |
| Lidar.SilentCompletion | stm32f0-debugger/Src/lidar.c:490-511 | once the timer reads zero, stop/reset zero the count, clear the wait flag and report the completion then a prompt, changing nothing else and not resetting the line; before that nothing happens |
| Lidar.Consume | stm32f0-debugger/Src/lidar.c:139-174 | decoding a byte never changes the outstanding request, the wait or the mailbox |
| Lidar.PayloadByte | stm32f0-debugger/Src/lidar.c:170-176 | payload byte `k` lands at `DATA_RESPONSE[k]` when `k < 1080`; past the buffer nothing is written and an overrun is reported first; the descriptor is kept; unless the count reaches `7 + declared length`, only the count (plus one, modulo 2^32) and the stored byte change and nothing but an overrun is reported |
| Lidar.Reply | stm32f0-debugger/Src/lidar.c:187-195 | the report printed identifies the request it answers: device info iff get_info, health iff get_health, sample rates iff get_samplerate |
| Lidar.Complete | stm32f0-debugger/Src/lidar.c:176-203 | at completion, scan renders one record and rewinds the count by 5 with no prompt or reset; get_info, get_health and get_samplerate render the stored payload with their own decoder (`DecodeInfo`, `DecodeHealth`, `DecodeSampleRate`), zero the count, prompt and reset the command line; express/force scan and anything else change nothing; only the count ever changes |
| LidarResponses.CheckBits | stm32f0-debugger/Src/lidar.c:531 | the check value is the low two bits of byte 0 followed by bit 0 of byte 1 |
| LidarResponses.DecodeScan | stm32f0-debugger/Src/lidar.c:531-545 | a record is accepted iff check is 5 or 6; quality is `b0 >> 2` (< 64), angle `(b1>>1)+(b2<<7)` (< 2^15), distance `b3+(b4<<8)` (< 2^16), and each field's source bits can be read back from it |
| LidarResponses.ScanOutput | stm32f0-debugger/Src/lidar.c:540-545 | one point for an accepted record, nothing for a dropped one |
| LidarResponses.ScanRoundTrip | stm32f0-debugger/Src/lidar.c:515-545 | a record laid out as the comment at 515-521 describes, not starting a revolution, decodes back to its quality, angle and distance |
| LidarResponses.StartRecordsDropped | stm32f0-debugger/Src/lidar.c:528-540 | a well-formed record that starts a revolution reads as check 3 and is dropped |
| LidarResponses.MalformedPatternAccepted | stm32f0-debugger/Src/lidar.c:528-540 | a record with both start bits set and check bit clear (pattern 6) is accepted |
| LidarResponses.StatusOf | stm32f0-debugger/Src/lidar.c:642-647 | status 0, 1 and 2 are good, warning and error; anything else is unknown |
| LidarResponses.DecodeInfo | stm32f0-debugger/Src/lidar.c:589-624 | model, firmware minor then major, hardware from bytes 0..3; the serial bytes in printing order 19 down to 4 |
| LidarResponses.DecodeHealth | stm32f0-debugger/Src/lidar.c:635-662 | status from byte 0; error code from bytes 0 and 1, little-endian |
| LidarResponses.HealthErrorLine | stm32f0-debugger/Src/lidar.c:649-659 | the error line is left out iff bytes 0 and 1 are both zero, and a non-good status always prints it |
| LidarResponses.DecodeSampleRate | stm32f0-debugger/Src/lidar.c:673-687 | two 16-bit little-endian durations from bytes 0..3 |
| LidarResponses.SampleRateRoundTrip | stm32f0-debugger/Src/lidar.c:673-687 | two 16-bit durations sent little-endian are reported unchanged |
| LidarFrames.FeedAppend | stm32f0-debugger/Src/lidar.c:116-204 | feeding `a + b` is feeding `a`, then `b`, outputs concatenated |
| LidarFrames.FeedKeepsWait | stm32f0-debugger/Src/lidar.c:133-174 | outside an expired wait, bytes never touch the timer, the wait flag or the request, and leave the mailbox empty |
| LidarFrames.DescriptorStep | stm32f0-debugger/Src/lidar.c:140-168 | descriptor byte `j` goes into exactly the field for position `j` |
| LidarFrames.FeedDescriptor | stm32f0-debugger/Src/lidar.c:140-168 | seven bytes give the descriptor `(d0, d1, d2..d5 little-endian, d6)`, a count of 7, no output, with request and wait kept |
| LidarFrames.FeedPayload | stm32f0-debugger/Src/lidar.c:170-176 | payload bytes that do not complete the response are stored in order from `DATA_RESPONSE[byte_count - 7]`, one count each, with no output |
| LidarFrames.FeedToCompletion | stm32f0-debugger/Src/lidar.c:170-203 | the rest of a response ending in its last byte is the stored payload followed by completion |
| LidarFrames.RequestReply | stm32f0-debugger/Src/lidar.c:176-203 | a get_* request answered by descriptor plus payload of the declared length renders the reply, prompts, resets the command line and zeroes the count |
| LidarFrames.ReplyQuietUntilLastByte | stm32f0-debugger/Src/lidar.c:176 | every proper prefix of such a reply produces no output |
| LidarFrames.GetInfoReply | stm32f0-debugger/Src/lidar.c:589-624 | a 20-byte get_info reply reports its model, firmware, hardware and serial bytes |
| LidarFrames.ScanRecordStep | stm32f0-debugger/Src/lidar.c:176-180 | in scan mode with length 5, each record overwrites `DATA_RESPONSE[0..4]`, is rendered by `ScanOutput`, and leaves the decoder back at a record boundary with the descriptor kept |
| LidarFrames.ScanStream | stm32f0-debugger/Src/lidar.c:536-537 | any number of records never finishes the scan: the output is the records' renderings in order, never a prompt or a line reset, and no byte past the first five is touched |
| LidarFrames.SilentRequestCompletesOnce | stm32f0-debugger/Src/lidar.c:121-131 | after stop/reset and enough ticks, one call reports the completion and clears the wait; the next call never reports it again, and with no byte pending does nothing |
| LidarFrames.ResetKeepsPendingByte | stm32f0-debugger/Src/lidar.c:336-350 | a byte pending when reset is sent is still pending after the reset completes and is then decoded as the first descriptor byte; only stop clears the mailbox |
| LidarFrames.SilentWindowDecodes | stm32f0-debugger/Src/lidar.c:121-137 | a byte arriving during a running wait is decoded like any other: it lands in its descriptor field, the count rises by one, the wait and the request are kept and nothing is printed |
| LidarFrames.StallIsPermanent | stm32f0-debugger/Src/lidar.c:121-131 | a stalled decoder stays stalled whatever bytes and ticks arrive, emits nothing and keeps its count, descriptor and data |
| LidarFrames.RequestDuringWaitStalls | stm32f0-debugger/Src/lidar.c:121-131 | a non-silent request sent during a stop/reset wait stalls the decoder once the wait runs out |
| LidarFrames.ZeroLengthNeverCompletes | stm32f0-debugger/Src/lidar.c:170-176 | with a declared length of 0 no byte ever completes the response |
| LidarFrames.PastEndByte | stm32f0-debugger/Src/lidar.c:170-176 | a byte arriving with the count at or past `7 + length` is stored at `byte_count - 7` (or reported as an overrun past 1080) and counted, and nothing is completed |
| LidarFrames.PastEndKeepsCounting | stm32f0-debugger/Src/lidar.c:170-176 | from a count at or past `7 + length` any run of bytes raises the count by its length and reports nothing but overruns |
| LidarFrames.UnimplementedScanKeepsCounting | stm32f0-debugger/Src/lidar.c:170-186 | after an express/force scan "completion" at any declared length `n` the next byte is stored at `DATA_RESPONSE[n]` while `n < 1080` and is an overrun after that; later bytes keep the count rising and report only overruns, never a second completion |
| Commands.Lookup | stm32f0-debugger/Src/usb_debug.c:182-193 | the first table entry equal to the name, or the table length when none is |
| Commands.TablesDistinct | stm32f0-debugger/Src/commands.c:14-23 | no two entries of either table coincide |
| Commands.LookupFindsEntry | stm32f0-debugger/Src/commands.c:66-125 | the lookup returns position `i` iff the name is entry `i` |
| Commands.Servo | stm32f0-debugger/Src/commands.c:36-51 | the angle is set iff `0 <= v <= 180`, and then to exactly `v`: the reply is then exactly the angle, the acceptance and the prompt; otherwise it is exactly the range error and the prompt; the line is never reset |
| Commands.Help | stm32f0-debugger/Src/commands.c:141-160 | exactly the command listing followed by the prompt |
| Commands.PayloadOpcodesOneToOne | stm32f0-debugger/Src/commands.c:78-125 | payloads 2..9 call the eight request functions, each exactly once |
| Commands.RequestPayloadEffects | stm32f0-debugger/Src/commands.c:78-125 | a request payload sends exactly its own frame, never switches the motor, never prompts, and resets the line iff it is stop or reset |
| Commands.LocalPayloadEffects | stm32f0-debugger/Src/commands.c:66-77 | pwm_start/pwm_stop switch the motor, prompt and reset the line; an unknown payload only lists and prompts; neither sends a frame |
| Commands.LidarCommand | stm32f0-debugger/Src/commands.c:55-138 | the value buffer is left lower-cased in place; when the lower-cased string is a request payload, the sensor state is that of its `LIDAR_REQ_*` call and its one request frame is sent, with no motor event; `pwm_start`/`pwm_stop` switch the motor, send no frame and reset the line; a string matching no payload leaves the sensor alone, sends no frame, lists the payloads and keeps the line |
| Commands.RunPayload | stm32f0-debugger/Src/commands.c:66-137 | motor payloads and an unknown payload leave the sensor state alone; request payloads leave it exactly as their `LIDAR_REQ_*` call does |
| Commands.PayloadIgnoresCase | stm32f0-debugger/Src/commands.c:63-125 | payload `i` is selected iff the value, lower-cased, is `LIDAR_LIST[i]` |
| Console.Reset | stm32f0-debugger/Src/usb_debug.c:151-161 | the first 32 bytes of each token are cleared and the rest kept; size, selector and space index are 0 |
| Console.ResetEmpties | stm32f0-debugger/Src/usb_debug.c:151-161 | after a reset both tokens are empty strings, and a second reset changes nothing |
| Console.Check | stm32f0-debugger/Src/usb_debug.c:50-97 | returns 0 iff no byte is pending or an LF arrives on an empty line, 2 iff CR, -1 iff a non-CR at size 64, -2 iff a second space. The flag is cleared first. Anything but 1 leaves the tokens and size alone and echoes nothing. CR answers with a line end. A stored byte raises the size by 1 and, unless it is a NUL (which the NUL-terminated send drops), is echoed once, last. The size stays within 0..64 |
| Console.StoredByte | stm32f0-debugger/Src/usb_debug.c:71-89 | the first byte of a line starts the name, even a space; the first later space starts the value and is written at `val[-1]`; other bytes go to `cmd[size]` or `val[size - space_idx - 1]` |
| Console.LineFeedStored | stm32f0-debugger/Src/usb_debug.c:58-59 | LF is dropped only on an empty line; on a non-empty line it is stored and echoed |
| Console.NulStoredSilently | stm32f0-debugger/Src/usb_debug.c:85-96 | a NUL typed into the name is stored and counted but echoes nothing, since it is sent as a NUL-terminated string, and the name then reads only up to it |
| Console.PowerSumIsDecimal | stm32f0-debugger/Src/usb_debug.c:174-176 | the right-to-left power-of-ten sum equals the left-to-right decimal reading, scaled |
| Console.ParseDigits | stm32f0-debugger/Src/usb_debug.c:172-176 | a non-empty all-digit value parses to its decimal value, which is not negative |
| Console.DecimalOfDigits | stm32f0-debugger/Src/usb_debug.c:174-176 | `n` digits read as a number in `0 .. 10^n - 1` |
| Console.EmptyValueParsesNegative | stm32f0-debugger/Src/usb_debug.c:172-176 | an empty value parses as -48 |
| Console.ParseValue | stm32f0-debugger/Src/usb_debug.c:172-176 | the length scan starts at index 1, so at least one byte is read: a value whose second byte is NUL parses as its first byte minus `'0'` |
| Console.ProcessMessage | stm32f0-debugger/Src/usb_debug.c:165-207 | the name is lower-cased in place. help and servo run with the line kept. lidar runs the payload dispatch with the lower-cased value and resets the line iff the payload asked. An unknown name lists the commands, prompts and resets the line. Only lidar touches the sensor state |
| Console.CommandIgnoresCase | stm32f0-debugger/Src/usb_debug.c:178-193 | command `i` runs iff the name, lower-cased, is `COMMAND_LIST[i]` |
| Console.Process | stm32f0-debugger/Src/usb_debug.c:108-147 | -2 and -1 print their message then the prompt, leave an empty line with both tokens empty and the sensor untouched; 2 sends the acknowledgement of both tokens first and then exactly what the message handling sends, with its console and sensor state; every handled code zeroes the received byte; 0 and 1 change nothing |
| Console.ErrorsStartOver | stm32f0-debugger/Src/usb_debug.c:111-125 | after -1 or -2 the next byte typed starts a new name at `cmd[0]`: the name reads as that one byte, the value is empty, and the byte is echoed |
| Console.TypeName | stm32f0-debugger/Src/usb_debug.c:72-96 | typing a name on an empty line stores it at the start of `cmd`, echoes it and leaves `val` alone |
| Console.TypeValue | stm32f0-debugger/Src/usb_debug.c:83-96 | typing a value after the delimiter stores it at the start of `val` and echoes it |
| Console.TypeLine | stm32f0-debugger/Src/usb_debug.c:50-97 | typing `name`, a space and `value` leaves `cmd` holding `name` and `val` holding `value`. Everything is echoed, and the delimiter goes out of bounds before `val` |
| Console.Poll | stm32f0-debugger/Src/main.c:34-38 | one console pass leaves the mailbox empty; with nothing pending it changes nothing; only a CR can reach the sensor |
| Console.ServoMessage | stm32f0-debugger/Src/usb_debug.c:172-186 | a name reading "servo" in any case with a decimal value runs the servo command on that number and keeps the line and the sensor state |
| Console.EnterServo | stm32f0-debugger/Src/usb_debug.c:135-145 | CR on a "servo N" line acknowledges both tokens and runs the servo command on N; the line is kept |
| Console.ServoLine | stm32f0-debugger/Src/commands.c:40-46 | end to end, typing "servo", a space, decimal N and CR sets the angle iff N <= 180, and leaves the line to be extended |
| Console.ServoEntered | stm32f0-debugger/Src/usb_debug.c:133-145 | on any line holding a "servo" name and decimal N, CR prints the line end and the acknowledgement, then sets the angle iff N <= 180, with the sensor untouched and the line kept |
| Debugger.Boot | stm32f0-debugger/Src/main.c:30-32 | `LIDAR_init` sends exactly the reset frame `A5 40`, records the reset request with count 0 and arms the 2-tick wait; `SERVO_init` sets angle 0 and no other; the output ends with the first prompt; the command line is empty |
| Debugger.BootResetReported | stm32f0-debugger/Src/lidar.c:504-511 | after start-up a pass before the second tick reports nothing; the first pass after two ticks reports the reset and prompts, clears the wait and leaves the console as it was |
| Debugger.Pass | stm32f0-debugger/Src/main.c:34-38 | a pass with both mailboxes empty and no expired wait changes nothing; a stalled decoder with a quiet console changes nothing |
| Debugger.Apply | stm32f0-debugger/Src/usart.c:21-39 | a receive interrupt only makes its own mailbox pending with the byte received, and a tick only lowers the sensor timer by one down to zero; none of them emits anything; a loop pass leaves the console mailbox empty |
| Debugger.TicksCountDown | stm32f0-debugger/Src/stm32f0xx_it.c:51-55 | `k` ticks leave the sensor timer at `max(0, t - k)`, emit nothing and change nothing else, in particular not the wait flag |
| Debugger.TypingAheadLosesBytes | stm32f0-debugger/Src/usart.c:21-25 | a console byte delivered before the loop took the previous one replaces it |
| Debugger.StallSurvivesLoops | stm32f0-debugger/Src/lidar.c:121-131 | once stalled, any number of loop passes with a quiet console leave the system exactly as it is |
| Debugger.ReplyClearsConsole | stm32f0-debugger/Src/lidar.c:199-201 | a reply completing in the sensor step empties the command line even when a line is half typed |

## Behaviour as written

The model keeps these as the code does them. A lemma shows each one.

- Bytes that arrive during a stop/reset wait are still decoded:
  `LidarFrames.SilentWindowDecodes`.
- Reset, unlike stop, does not clear the sensor mailbox. A byte pending
  when reset is sent is decoded right after the reset report:
  `LidarFrames.ResetKeepsPendingByte`.
- A non-stop/reset request sent during the wait leaves `lidar_timing` set.
  Once the timer reaches 0 the decoder returns at the top of every call,
  for good: `LidarFrames.RequestDuringWaitStalls`,
  `LidarFrames.StallIsPermanent`, `Debugger.StallSurvivesLoops`.
- A declared length of 0 never completes, because the test runs only
  after a payload byte: `LidarFrames.ZeroLengthNeverCompletes`.
- Nothing checks that the declared length fits the 1080-byte buffer.
  Express and force scan never close their response, so the count runs
  on past the buffer: `Lidar.PayloadByte`,
  `LidarFrames.UnimplementedScanKeepsCounting`.
- Scan records are accepted for check patterns 5 and 6. The bit comments
  at lidar.c:528-530 do not match the shifts at line 531. A well-formed
  start-of-revolution record is dropped, and malformed pattern 6 is
  accepted: `LidarResponses.StartRecordsDropped`,
  `LidarResponses.MalformedPatternAccepted`.
- The health error code is read from bytes 0 and 1, the status byte
  included. The comment above `LIDAR_RES_get_health` places it at bytes
  1 and 2: `LidarResponses.DecodeHealth`.
- The console delimiter is written at `val[-1]`: `Console.StoredByte`,
  `Console.TypeLine`.
- Only the 64-byte line total is checked, not the capacity of each
  token: `Console.StoredByte` guards its value case with the buffer
  length.
- An empty value parses as -48, because the length scan starts at index
  1: `Console.EmptyValueParsesNegative`.
- `help`, `servo`, the scan, express_scan and force_scan payloads and an
  unknown lidar payload (commands.c:126-137) do not reset the command
  line. The next bytes typed extend the old line:
  `Console.ProcessMessage`, `Console.ServoLine`,
  `Commands.LocalPayloadEffects`.
- A NUL typed on a line is stored and counted but echoes nothing, and
  since the name is read only up to its first NUL, it cuts the name short:
  `Console.NulStoredSilently`.
- Start-up resets the sensor, so the first thing the console shows after
  the prompt is the reset report and a second prompt, two ticks later:
  `Debugger.BootResetReported`.

## Left out

- Text formatting (`snprintf`, `sprintf`, `strncat`) and the exact message strings are not modelled. Each message is an event carrying the fields it prints.
- Console.Process: the acknowledgement is truncated to the 64-byte print buffer; this is not modelled. `LineAck` carries both tokens whole.
- LidarResponses.DecodeInfo: the serial-number hex string is garbled by overlapping `%02X` writes into the 16-byte `serial_number` (lidar.c:596-602). The last two iterations also write `serial_number[16]` and `serial_number[17]`, past the array (lidar.c:600-601). The model gives the bytes in printing order, not the string, and does not model that overflow.
- Console.ParseDigits: the C sum is an `int` built with the floating-point `pow`. The model uses unbounded integers, so 32-bit overflow and `pow` rounding for long values are not modelled.
- Console.ProcessMessage: for an unknown command, usb_debug.c:195-203 builds the reply in the 64-byte `print_buffer`. Each `strncat` is bounded by 64 per call, not by the space left, so the reply grows to 95 characters and is written past the buffer. The model emits `CommandList` and `Prompt` and does not model that overflow.
- Console.Check: writes outside a token buffer are reported as `StrayWrite` and not performed. This covers the delimiter at `val[-1]` and bytes past a token's capacity. What they would overwrite in `struct usb_message` is not modelled.
- Lidar.PayloadByte: writes past `DATA_RESPONSE` are reported as `Overrun` and not performed.
- CStr.Str: a buffer with no NUL is read to its end. C would read on past it.
- `struct usb_message` and `COMMAND_COUNT` are not part of this model. The token capacity is the length of the buffers given, at least 32.
- Register I/O, baud-rate setup, busy-wait transmit and the interrupt handlers' hardware side (usart.c) are not modelled. A receive interrupt is the `Deliver` step on a mailbox. A transmitted request is a `Transmit` event.
- The servo timer and its floating-point angle-to-PWM mapping (servo.c) are left out. They become the `SetAngle` event.
- `LIDAR_PWM_init/start/stop` are left out: hardware registers and a float. They become the `MotorStart` and `MotorStop` events.
- Clock and HAL bring-up (main.c, stm32f0xx_hal_msp.c) and `HAL_IncTick` are not modelled.
- Debugger.Pass: main.c:36 calls `USB_process()` with no argument, although usb_debug.c:108 takes the check code. The loop is modelled as `USB_process(USB_check())`.
- When interrupts fire relative to the loop is not modelled as concurrency. It is an arbitrary sequence of `Debugger.Stimulus` values, and last-write-wins loss in the mailbox is what the model keeps of it.
- A `char` is taken to be unsigned (0..255), as on ARM.

=== FILE: bytes.dfy ===
/** Bytes as the firmware sees them: `char` and `uint8_t` are unsigned on the
    target, so every byte is an integer in 0..255. */
module Bytes {

  type Byte = b: int | 0 <= b < 256

  /** Modulus of the firmware's `uint32_t` arithmetic. */
  const U32: int := 0x1_0000_0000

  type U32Value = x: int | 0 <= x < U32

  /** `lo + ((unsigned)hi << 8)`: a little-endian 16-bit value. */
  function LE16(lo: Byte, hi: Byte): (r: nat)
    ensures r < 0x1_0000
  {
    lo + hi * 256
  }

  /** `x + 1` in `uint32_t`. */
  function Inc32(x: U32Value): (r: U32Value)
    ensures x < U32 - 1 ==> r == x + 1
    ensures x == U32 - 1 ==> r == 0
  {
    (x + 1) % U32
  }

  /** `a | b` on two bytes. */
  function OrByte(a: Byte, b: Byte): (r: Byte)
    ensures (r as bv8) == (a as bv8) | (b as bv8)
    ensures a == 0 ==> r == b
  {
    if a == 0 then b else ((a as bv8) | (b as bv8)) as int
  }

  /** A `uint32_t` held as its four bytes, least significant first. Writing
      `w = b` sets lane 0 and clears the rest; `w |= b << 8k` ors `b` into
      lane `k` and leaves the others alone. */
  datatype Word = Word(lane0: Byte, lane1: Byte, lane2: Byte, lane3: Byte)

  /** The number a word holds. */
  function WordValue(w: Word): (n: nat)
    ensures n < U32
  {
    w.lane0 + w.lane1 * 0x100 + w.lane2 * 0x1_0000 + w.lane3 * 0x100_0000
  }
}

=== FILE: commands.dfy ===
/** The console commands (commands.c): the command and sensor-payload tables,
    the servo range gate, the sensor payload dispatch and the help listing.
    Message texts are abstracted to events; the actions they accompany (a
    servo angle, a motor switch, a sensor request) are events too. */
module Commands {
  import opened Bytes
  import opened Events
  import opened CStr
  import Lidar

  /** `COMMAND_LIST`, in matching order. */
  const COMMAND_LIST: seq<string> := ["help", "servo", "lidar"]
  const HELP: nat := 0
  const SERVO: nat := 1
  const LIDAR: nat := 2

  /** `LIDAR_LIST`, in matching order. */
  const LIDAR_LIST: seq<string> := [
    "pwm_start", "pwm_stop",
    "stop", "reset",
    "scan", "express_scan", "force_scan",
    "get_info", "get_health", "get_samplerate"]

  /** The first table position whose entry is `name` (what a chain of `strcmp`
      tests finds), or the table length when there is none. */
  function Lookup(table: seq<string>, name: string): (i: nat)
    ensures i <= |table|
    ensures i < |table| ==> table[i] == name
    ensures forall k | 0 <= k < i :: table[k] != name
    decreases |table|
  {
    if table == [] then 0
    else if table[0] == name then 0
    else 1 + Lookup(table[1..], name)
  }

  /** No two entries of either table coincide, so a name matches at most one
      entry and table order only decides which test runs first. */
  lemma TablesDistinct()
    ensures forall i, j | 0 <= i < j < |COMMAND_LIST| :: COMMAND_LIST[i] != COMMAND_LIST[j]
    ensures forall i, j | 0 <= i < j < |LIDAR_LIST| :: LIDAR_LIST[i] != LIDAR_LIST[j]
  {
  }

  /** `Lookup` finds an entry exactly when the name is one of the entries, and
      then it is that entry's own position. */
  lemma LookupFindsEntry(table: seq<string>, name: string, i: nat)
    requires i < |table|
    requires forall a, b | 0 <= a < b < |table| :: table[a] != table[b]
    ensures Lookup(table, name) == i <==> name == table[i]
  {
  }

  // ---------------------------------------------------------------------------
  // COMMAND_servo

  /** `COMMAND_servo`: the angle is applied exactly when it lies in 0..180,
      and the reply always ends with the prompt. */
  function Servo(value: int): (out: seq<Event>)
    ensures SetAngle(value) in out <==> 0 <= value <= 180
    ensures forall e | e in out && e.SetAngle? :: e == SetAngle(value)
    ensures (AngleRejected in out) != (0 <= value <= 180)
    ensures |out| > 0 && out[|out| - 1] == Prompt
    ensures ResetCommandLine !in out
    ensures !(0 <= value <= 180) ==> out == [AngleRejected, Prompt]
    ensures 0 <= value <= 180 ==> out == [SetAngle(value), AngleAccepted(value), Prompt]
  {
    if value < 0 || value > 180 then
      [AngleRejected, Prompt]
    else
      [SetAngle(value), AngleAccepted(value), Prompt]
  }

  // ---------------------------------------------------------------------------
  // COMMAND_help

  /** `COMMAND_help`: the command listing and the prompt, nothing else; in
      particular the command line is not reset. */
  function Help(): (out: seq<Event>)
    ensures forall e | e in out :: e == CommandList || e == Prompt
    ensures out == [CommandList, Prompt]
    ensures |out| > 0 && out[|out| - 1] == Prompt
  {
    [CommandList, Prompt]
  }

  // ---------------------------------------------------------------------------
  // COMMAND_lidar

  /** The `LIDAR_REQ_*` function payload `i` (2..9) calls. */
  function PayloadOpcode(i: nat): (op: Byte)
    requires 2 <= i < |LIDAR_LIST|
    ensures Lidar.IsOpcode(op)
  {
    [Lidar.REQ_STOP, Lidar.REQ_RESET, Lidar.REQ_SCAN, Lidar.REQ_EXPRESS_SCAN,
     Lidar.REQ_FORCE_SCAN, Lidar.REQ_GET_INFO, Lidar.REQ_GET_HEALTH,
     Lidar.REQ_GET_SAMPLERATE][i - 2]
  }

  /** Every request opcode is reached from exactly one payload. */
  lemma PayloadOpcodesOneToOne()
    ensures forall i, j | 2 <= i < j < |LIDAR_LIST| :: PayloadOpcode(i) != PayloadOpcode(j)
    ensures forall op | Lidar.IsOpcode(op) :: exists i | 2 <= i < |LIDAR_LIST| :: PayloadOpcode(i) == op
  {
    forall op | Lidar.IsOpcode(op)
      ensures exists i | 2 <= i < |LIDAR_LIST| :: PayloadOpcode(i) == op
    {
      if op == Lidar.REQ_STOP { assert PayloadOpcode(2) == op; }
      else if op == Lidar.REQ_RESET { assert PayloadOpcode(3) == op; }
      else if op == Lidar.REQ_SCAN { assert PayloadOpcode(4) == op; }
      else if op == Lidar.REQ_EXPRESS_SCAN { assert PayloadOpcode(5) == op; }
      else if op == Lidar.REQ_FORCE_SCAN { assert PayloadOpcode(6) == op; }
      else if op == Lidar.REQ_GET_INFO { assert PayloadOpcode(7) == op; }
      else if op == Lidar.REQ_GET_HEALTH { assert PayloadOpcode(8) == op; }
      else { assert PayloadOpcode(9) == op; }
    }
  }

  /** The payload `COMMAND_lidar` selects for a value buffer. */
  function PayloadOf(val: seq<Byte>): (i: nat)
    ensures i <= |LIDAR_LIST|
  {
    Lookup(LIDAR_LIST, Text(Str(Lower(val))))
  }

  /** Payload `i` run against the sensor state (`|LIDAR_LIST|` stands for an
      unknown payload): the motor payloads announce themselves, switch the
      motor, prompt and reset the command line; the request payloads
      announce themselves and send their request; an unknown payload lists
      the table and prompts. */
  function RunPayload(i: nat, l: Lidar.State): (r: Lidar.Step)
    requires Lidar.Valid(l) && i <= |LIDAR_LIST|
    ensures Lidar.Valid(r.state)
    ensures i < 2 || i == |LIDAR_LIST| ==> r.state == l
    ensures 2 <= i < |LIDAR_LIST| ==> r.state == Lidar.Request(l, PayloadOpcode(i)).state
  {
    if i == 0 then
      Lidar.Step(l, [Announce(0), MotorStart, Prompt, ResetCommandLine])
    else if i == 1 then
      Lidar.Step(l, [Announce(1), MotorStop, Prompt, ResetCommandLine])
    else if i < |LIDAR_LIST| then
      var sent := Lidar.Request(l, PayloadOpcode(i));
      Lidar.Step(sent.state, [Announce(i)] + sent.out)
    else
      Lidar.Step(l, [PayloadList, Prompt])
  }

  /** A sensor payload puts exactly its own request frame on the link and
      touches neither the motor nor the prompt (that comes with the reply);
      only stop and reset reset the command line. */
  lemma RequestPayloadEffects(i: nat, l: Lidar.State)
    requires Lidar.Valid(l) && 2 <= i < |LIDAR_LIST|
    ensures var r := RunPayload(i, l);
            && Lidar.Frames(r.out) == [[Lidar.START_BIT, PayloadOpcode(i)]]
            && MotorStart !in r.out && MotorStop !in r.out && Prompt !in r.out
            && (ResetCommandLine in r.out <==> i < 4)
  {
    var sent := Lidar.Request(l, PayloadOpcode(i));
    assert RunPayload(i, l).out[1..] == sent.out;
    assert Lidar.IsSilent(PayloadOpcode(i)) <==> i < 4;
  }

  /** The motor payloads switch the motor, prompt and reset the command line;
      an unknown payload only lists the table and prompts. Neither sends a
      request frame. */
  lemma LocalPayloadEffects(i: nat, l: Lidar.State)
    requires Lidar.Valid(l) && (i < 2 || i == |LIDAR_LIST|)
    ensures var r := RunPayload(i, l);
            && Lidar.Frames(r.out) == [] && Prompt in r.out
            && (MotorStart in r.out <==> i == 0)
            && (MotorStop in r.out <==> i == 1)
            && (ResetCommandLine in r.out <==> i < 2)
  {
    var r := RunPayload(i, l);
    if i < 2 {
      assert r.out[1..][1..][1..][1..] == [];
    } else {
      assert r.out[1..][1..] == [];
    }
  }

  /** What `COMMAND_lidar` leaves behind: the value buffer (lower-cased in
      place), the sensor state and the events. */
  datatype LidarOutcome = LidarOutcome(val: seq<Byte>, lidar: Lidar.State, out: seq<Event>)

  /** `COMMAND_lidar`: lower-case the value in place, find its string in
      `LIDAR_LIST` and run that payload. A request payload changes the sensor
      exactly as its `LIDAR_REQ_*` call does and puts that one frame on the
      link; a motor payload switches the motor and resets the line; a string
      matching no entry leaves the sensor alone, lists the payloads and keeps
      the line. Matching ignores case. */
  function LidarCommand(val: seq<Byte>, l: Lidar.State): (r: LidarOutcome)
    requires Lidar.Valid(l)
    ensures r.val == Lower(val) && Str(r.val) == LowerAll(Str(val))
    ensures Lidar.Valid(r.lidar)
    ensures forall i | 2 <= i < |LIDAR_LIST| ::
              Text(LowerAll(Str(val))) == LIDAR_LIST[i] ==>
                && r.lidar == Lidar.Request(l, PayloadOpcode(i)).state
                && Lidar.Frames(r.out) == [[Lidar.START_BIT, PayloadOpcode(i)]]
                && MotorStart !in r.out && MotorStop !in r.out
    ensures Text(LowerAll(Str(val))) == LIDAR_LIST[0] ==>
              && r.lidar == l && Lidar.Frames(r.out) == [] && ResetCommandLine in r.out
              && MotorStart in r.out && MotorStop !in r.out
    ensures Text(LowerAll(Str(val))) == LIDAR_LIST[1] ==>
              && r.lidar == l && Lidar.Frames(r.out) == [] && ResetCommandLine in r.out
              && MotorStop in r.out && MotorStart !in r.out
    ensures (forall i | 0 <= i < |LIDAR_LIST| :: Text(LowerAll(Str(val))) != LIDAR_LIST[i]) ==>
              && r.lidar == l && Lidar.Frames(r.out) == [] && PayloadList in r.out
              && ResetCommandLine !in r.out && MotorStart !in r.out && MotorStop !in r.out
  {
    LowerStr(val);
    SelectsRequest(val, l);
    SelectsMotor(val, l, 0);
    SelectsMotor(val, l, 1);
    SelectsNothing(val, l);
    var run := RunPayload(PayloadOf(val), l);
    LidarOutcome(Lower(val), run.state, run.out)
  }

  /** A value naming request payload `i` runs that request. */
  lemma SelectsRequestAt(val: seq<Byte>, l: Lidar.State, i: nat)
    requires Lidar.Valid(l) && 2 <= i < |LIDAR_LIST|
    requires Text(LowerAll(Str(val))) == LIDAR_LIST[i]
    ensures var run := RunPayload(PayloadOf(val), l);
            && run.state == Lidar.Request(l, PayloadOpcode(i)).state
            && Lidar.Frames(run.out) == [[Lidar.START_BIT, PayloadOpcode(i)]]
            && MotorStart !in run.out && MotorStop !in run.out
  {
    PayloadIgnoresCase(val, i);
    RequestPayloadEffects(i, l);
  }

  /** `SelectsRequestAt` for every request payload at once. */
  lemma SelectsRequest(val: seq<Byte>, l: Lidar.State)
    requires Lidar.Valid(l)
    ensures forall i | 2 <= i < |LIDAR_LIST| :: Text(LowerAll(Str(val))) == LIDAR_LIST[i] ==>
              && RunPayload(PayloadOf(val), l).state == Lidar.Request(l, PayloadOpcode(i)).state
              && Lidar.Frames(RunPayload(PayloadOf(val), l).out) == [[Lidar.START_BIT, PayloadOpcode(i)]]
              && MotorStart !in RunPayload(PayloadOf(val), l).out
              && MotorStop !in RunPayload(PayloadOf(val), l).out
  {
    forall i | 2 <= i < |LIDAR_LIST| && Text(LowerAll(Str(val))) == LIDAR_LIST[i] {
      SelectsRequestAt(val, l, i);
    }
  }

  /** A value naming motor payload `i` switches the motor and sends nothing. */
  lemma SelectsMotor(val: seq<Byte>, l: Lidar.State, i: nat)
    requires Lidar.Valid(l) && i < 2
    ensures var run := RunPayload(PayloadOf(val), l);
            Text(LowerAll(Str(val))) == LIDAR_LIST[i] ==>
              && run.state == l && Lidar.Frames(run.out) == [] && ResetCommandLine in run.out
              && (MotorStart in run.out <==> i == 0) && (MotorStop in run.out <==> i == 1)
  {
    if Text(LowerAll(Str(val))) == LIDAR_LIST[i] {
      PayloadIgnoresCase(val, i);
      LocalPayloadEffects(i, l);
    }
  }

  /** A value naming no payload lists the table and keeps the line. */
  lemma SelectsNothing(val: seq<Byte>, l: Lidar.State)
    requires Lidar.Valid(l)
    ensures var run := RunPayload(PayloadOf(val), l);
            (forall i | 0 <= i < |LIDAR_LIST| :: Text(LowerAll(Str(val))) != LIDAR_LIST[i]) ==>
              && run.state == l && Lidar.Frames(run.out) == [] && PayloadList in run.out
              && ResetCommandLine !in run.out && MotorStart !in run.out && MotorStop !in run.out
  {
    var p := PayloadOf(val);
    if p < |LIDAR_LIST| {
      PayloadIgnoresCase(val, p);
    } else {
      LocalPayloadEffects(p, l);
    }
  }

  /** Payload matching ignores case: the value selects entry `i` exactly when
      its string, lower-cased, is that entry. */
  lemma PayloadIgnoresCase(val: seq<Byte>, i: nat)
    requires i < |LIDAR_LIST|
    ensures PayloadOf(val) == i <==> Text(LowerAll(Str(val))) == LIDAR_LIST[i]
  {
    LowerStr(val);
    TablesDistinct();
    LookupFindsEntry(LIDAR_LIST, Text(Str(Lower(val))), i);
  }
}

=== FILE: console.dfy ===
/** The console side (usb_debug.c): the line framer `USB_check`, the code
    handler `USB_process`, `USB_reset_command` and `USB_process_message`.
    A line is split at its first space into a command name and a value, each
    kept in its own byte buffer; a carriage return hands the line to the
    command dispatcher. `struct usb_message` is not part of this model: the
    token buffers' capacity is whatever length the buffers are given (at
    least the 32 entries `USB_reset_command` clears), and a write the C code
    makes outside a buffer is reported as an event instead of performed. */
module Console {
  import opened Bytes
  import opened Events
  import opened CStr
  import Usart
  import Lidar
  import Commands
  import Streams

  /** `buffer_size`: the most bytes a line may hold. */
  const LINE_LIMIT: nat := 64
  /** Entries of each token buffer `USB_reset_command` clears. */
  const CLEARED: nat := 32

  const LF: Byte := 0x0A
  const CR: Byte := 0x0D
  const SPACE: Byte := 0x20
  const ZERO: Byte := 0x30

  /** `struct usb_message command` with `buffer_current_size` and the
      console link's receive mailbox. */
  datatype Console = Console(
    cmd: seq<Byte>,       // command.cmd
    val: seq<Byte>,       // command.val
    sel: Token,           // command.sel: which token is being written
    spaceIdx: int,        // command.space_idx: where the first space was
    size: int,            // buffer_current_size: bytes stored on this line
    rx: Usart.Mailbox)    // usb_received_value / usb_newData_flag

  /** The states the framer keeps to: a value token exists exactly when a
      space was recorded, and that space lies inside the line. */
  predicate Valid(c: Console) {
    && |c.cmd| >= CLEARED && |c.val| >= CLEARED
    && 0 <= c.size <= LINE_LIMIT
    && 0 <= c.spaceIdx
    && (c.sel == Value <==> c.spaceIdx > 0)
    && (c.spaceIdx > 0 ==> c.spaceIdx < c.size)
  }

  /** Power-on: the globals are zero; `capacity` is the token buffers' size. */
  function Boot(capacity: nat): (c: Console)
    requires capacity >= CLEARED
    ensures Valid(c) && c.size == 0 && Str(c.cmd) == [] && Str(c.val) == []
  {
    Console(seq(capacity, _ => NUL), seq(capacity, _ => NUL), Name, 0, 0, Usart.Empty)
  }

  // ---------------------------------------------------------------------------
  // USB_reset_command

  /** The first 32 entries of a buffer cleared, the rest kept. */
  function Clear(buf: seq<Byte>): (r: seq<Byte>)
    requires |buf| >= CLEARED
  {
    seq(CLEARED, _ => NUL) + buf[CLEARED..]
  }

  /** `USB_reset_command`: an empty line, ready for a new command. */
  function Reset(c: Console): (r: Console)
    requires Valid(c)
    ensures Valid(r)
    ensures r.size == 0 && r.sel == Name && r.spaceIdx == 0 && r.rx == c.rx
    ensures |r.cmd| == |c.cmd| && |r.val| == |c.val|
    ensures forall i | 0 <= i < CLEARED :: r.cmd[i] == NUL && r.val[i] == NUL
    ensures forall i | CLEARED <= i < |c.cmd| :: r.cmd[i] == c.cmd[i]
    ensures forall i | CLEARED <= i < |c.val| :: r.val[i] == c.val[i]
  {
    c.(cmd := Clear(c.cmd), val := Clear(c.val), sel := Name, spaceIdx := 0, size := 0)
  }

  /** After a reset both tokens read as empty strings, and resetting again
      changes nothing. */
  lemma ResetEmpties(c: Console)
    requires Valid(c)
    ensures Str(Reset(c).cmd) == [] && Str(Reset(c).val) == []
    ensures Reset(Reset(c)) == Reset(c)
  {
    var r := Reset(c);
    assert r.cmd[0] == NUL && r.val[0] == NUL;
    assert Clear(r.cmd) == r.cmd;
    assert Clear(r.val) == r.val;
  }

  // ---------------------------------------------------------------------------
  // USB_check

  /** The console after `USB_check`, its return code and what it sent. */
  datatype Checked = Checked(console: Console, code: int, out: seq<Event>)

  /** Store `b` in the token selected, at `size - space_idx` in the name and
      `size - space_idx - 1` in the value; an index outside the buffer is a
      stray write. */
  function Write(c: Console, b: Byte): (r: (Console, seq<Event>))
  {
    if c.sel == Name then
      var k := c.size - c.spaceIdx;
      if 0 <= k < |c.cmd| then (c.(cmd := c.cmd[k := b]), []) else (c, [StrayWrite(Name, k)])
    else
      var k := c.size - c.spaceIdx - 1;
      if 0 <= k < |c.val| then (c.(val := c.val[k := b]), []) else (c, [StrayWrite(Value, k)])
  }

  /** The echo of a stored byte: it is formatted with `%c` and sent as a
      NUL-terminated string, so a NUL byte sends nothing at all. */
  function EchoOf(b: Byte): (out: seq<Event>)
    ensures out == [] <==> b == NUL
    ensures forall e | e in out :: e == Echo(b)
  {
    if b == NUL then [] else [Echo(b)]
  }

  /** `USB_check`: take one byte, if any, from the mailbox and frame it.
      0: nothing pending, or a line feed on an empty line. 2: carriage
      return, answered with a line end; nothing is stored. -1: the line is
      full. -2: a second space. 1: the byte was stored and, unless it is a
      NUL, echoed. */
  function Check(c: Console): (r: Checked)
    requires Valid(c)
    ensures Valid(r.console)
    ensures -2 <= r.code <= 2
    ensures !c.rx.pending ==> r == Checked(c, 0, [])
    ensures c.rx.pending ==> r.console.rx == Usart.Take(c.rx)
    ensures r.code == 0 <==> !c.rx.pending || (c.rx.value == LF && c.size == 0)
    ensures r.code == 2 <==> c.rx.pending && c.rx.value == CR
    ensures r.code == -1 <==>
              c.rx.pending && c.rx.value != CR && c.size == LINE_LIMIT
    ensures r.code == -2 <==>
              c.rx.pending && c.rx.value == SPACE && 0 < c.size < LINE_LIMIT && c.spaceIdx > 0
    ensures r.code != 1 ==> r.console == c.(rx := r.console.rx)
    ensures r.code == 2 ==> r.out == [LineEnd]
    ensures r.code != 1 && r.code != 2 ==> r.out == []
    ensures r.code == 1 ==> r.console.size == c.size + 1
    ensures r.code == 1 && c.rx.value != NUL ==>
              && |r.out| >= 1 && r.out[|r.out| - 1] == Echo(c.rx.value)
              && (forall e | e in r.out[..|r.out| - 1] :: e.StrayWrite?)
    ensures r.code == 1 && c.rx.value == NUL ==> forall e | e in r.out :: e.StrayWrite?
  {
    if !c.rx.pending then Checked(c, 0, [])
    else
      var b := c.rx.value;
      var c1 := c.(rx := Usart.Take(c.rx));
      if b == LF && c1.size == 0 then Checked(c1, 0, [])
      else if b == CR then Checked(c1, 2, [LineEnd])
      else if c1.size == LINE_LIMIT then Checked(c1, -1, [])
      else if c1.size > 0 && b == SPACE && c1.spaceIdx > 0 then Checked(c1, -2, [])
      else
        var c2 :=
          if c1.size == 0 then c1.(sel := Name, spaceIdx := 0)
          else if b == SPACE then c1.(sel := Value, spaceIdx := c1.size)
          else c1;
        var w := Write(c2, b);
        Checked(w.0.(size := c2.size + 1), 1, w.1 + EchoOf(b))
  }

  /** Where a stored byte goes. The first byte of a line always starts the
      name, even a space; the first later space starts the value and is
      itself written one place before the value buffer; any other byte
      extends the token being written. */
  lemma StoredByte(c: Console)
    requires Valid(c) && Check(c).code == 1
    ensures var b := c.rx.value;
            var r := Check(c).console;
            && (c.size == 0 ==>
                  r.sel == Name && r.spaceIdx == 0 && r.cmd == c.cmd[0 := b] && r.val == c.val)
            && (c.size > 0 && b == SPACE ==>
                  r.sel == Value && r.spaceIdx == c.size && r.cmd == c.cmd && r.val == c.val
                  && Check(c).out == [StrayWrite(Value, -1), Echo(b)])
            && (c.size > 0 && b != SPACE && c.sel == Name ==>
                  r.sel == Name && r.val == c.val
                  && (c.size < |c.cmd| ==> r.cmd == c.cmd[c.size := b]))
            && (c.size > 0 && b != SPACE && c.sel == Value ==>
                  r.sel == Value && r.spaceIdx == c.spaceIdx && r.cmd == c.cmd
                  && (c.size - c.spaceIdx - 1 < |c.val| ==>
                        r.val == c.val[c.size - c.spaceIdx - 1 := b]))
  {
  }

  // ---------------------------------------------------------------------------
  // USB_process_message

  /** `10^k`. */
  function Pow10(k: nat): (p: nat)
    ensures p >= 1
  {
    if k == 0 then 1 else 10 * Pow10(k - 1)
  }

  /** The digit loop as written: from the last byte back, each byte minus
      '0' times the next power of ten (no digit check). */
  function PowerSum(s: seq<Byte>, steps: nat): int
    decreases |s|
  {
    if s == [] then 0
    else (s[|s| - 1] - ZERO) * Pow10(steps) + PowerSum(s[..|s| - 1], steps + 1)
  }

  /** The decimal number a digit string spells, read left to right. */
  function Decimal(s: seq<Byte>): int
    decreases |s|
  {
    if s == [] then 0 else 10 * Decimal(s[..|s| - 1]) + (s[|s| - 1] - ZERO)
  }

  /** The right-to-left power sum is the left-to-right decimal reading,
      scaled by the power the loop starts at. */
  lemma {:induction false} PowerSumIsDecimal(s: seq<Byte>, steps: nat)
    ensures PowerSum(s, steps) == Pow10(steps) * Decimal(s)
    decreases |s|
  {
    if s != [] {
      var p := s[..|s| - 1];
      var d := s[|s| - 1] - ZERO;
      PowerSumIsDecimal(p, steps + 1);
      var P := Pow10(steps);
      assert Pow10(steps + 1) == 10 * P;
      assert PowerSum(s, steps) == d * P + (10 * P) * Decimal(p);
      assert (10 * P) * Decimal(p) == P * (10 * Decimal(p));
      assert d * P + P * (10 * Decimal(p)) == P * (10 * Decimal(p) + d);
    }
  }

  /** How many value bytes the parse reads: `while (val[++length] != 0);`
      starts looking at index 1, so it reads at least one byte. A buffer
      with no NUL after index 0 is read to its end. */
  function ValueLength(val: seq<Byte>): (n: nat)
    requires |val| >= 1
    ensures 1 <= n <= |val|
  {
    1 + |Str(val[1..])|
  }

  /** The value `USB_process_message` computes from the value buffer. */
  function ParseValue(val: seq<Byte>): (v: int)
    requires |val| >= 1
    ensures |val| >= 2 && val[1] == NUL ==> v == val[0] - ZERO
  {
    var read := val[..ValueLength(val)];
    assert |val| >= 2 && val[1] == NUL ==>
             read == [val[0]] && PowerSum(read, 0) == (val[0] - ZERO) * Pow10(0) + PowerSum([], 1);
    PowerSum(read, 0)
  }

  predicate IsDigit(b: Byte) {
    ZERO <= b <= ZERO + 9
  }

  predicate AllDigits(s: seq<Byte>) {
    forall i | 0 <= i < |s| :: IsDigit(s[i])
  }

  /** A non-empty value made of digits parses to its decimal reading, which
      is not negative. */
  lemma ParseDigits(val: seq<Byte>)
    requires |val| >= 1 && Str(val) != [] && AllDigits(Str(val))
    ensures ParseValue(val) == Decimal(Str(val)) >= 0
  {
    var s := Str(val);
    ReadsHeldString(val);
    PowerSumFromZero(s);
    DecimalOfDigits(s);
  }

  /** The loop as it runs, from power zero, computes the decimal reading. */
  lemma PowerSumFromZero(s: seq<Byte>)
    ensures PowerSum(s, 0) == Decimal(s)
  {
    PowerSumIsDecimal(s, 0);
    var d := Decimal(s);
    assert Pow10(0) * d == d;
  }

  lemma {:induction false} DecimalOfDigits(s: seq<Byte>)
    requires AllDigits(s)
    ensures 0 <= Decimal(s) < Pow10(|s|)
    decreases |s|
  {
    if s != [] {
      DecimalOfDigits(s[..|s| - 1]);
    }
  }

  /** For a non-empty value the parse reads exactly the string it holds. */
  lemma ReadsHeldString(val: seq<Byte>)
    requires |val| >= 1 && Str(val) != []
    ensures ParseValue(val) == PowerSum(Str(val), 0)
  {
    assert Str(val) == [val[0]] + Str(val[1..]);
    assert val[..ValueLength(val)] == Str(val);
  }

  /** An empty value (the first two bytes NUL, as after a reset) parses as
      `0 - '0'`, that is -48. */
  lemma EmptyValueParsesNegative(val: seq<Byte>)
    requires |val| >= 2 && val[0] == NUL && val[1] == NUL
    ensures Str(val) == [] && ParseValue(val) == -48
  {
    assert ValueLength(val) == 1;
    assert val[..1] == [NUL];
    assert PowerSum([NUL], 0) == (NUL - ZERO) * 1 + PowerSum([], 1);
  }

  /** The console and sensor state after handling a code, and the events. */
  datatype Handled = Handled(console: Console, lidar: Lidar.State, out: seq<Event>)

  /** The command a name buffer selects: its string, lower-cased, looked up
      in `COMMAND_LIST` (`COMMAND_COUNT` when unknown). */
  function CommandOf(cmd: seq<Byte>): (i: nat)
    ensures i <= |Commands.COMMAND_LIST|
  {
    Commands.Lookup(Commands.COMMAND_LIST, Text(Str(Lower(cmd))))
  }

  /** `USB_process_message`: parse the value, lower-case the name in place
      and run the command it names. `lidar` hands the value buffer to the
      sensor payload dispatch, which lower-cases it in place and may reset
      the command line; an unknown name lists the commands and resets the
      line. `help` and `servo` leave the line as it is. */
  function ProcessMessage(c: Console, l: Lidar.State): (r: Handled)
    requires Valid(c) && Lidar.Valid(l)
    ensures Valid(r.console) && Lidar.Valid(r.lidar)
    ensures r.console.rx == c.rx
    ensures CommandOf(c.cmd) != Commands.LIDAR ==> r.lidar == l
    ensures CommandOf(c.cmd) == Commands.HELP ==>
              r.out == Commands.Help() && r.console == c.(cmd := Lower(c.cmd))
    ensures CommandOf(c.cmd) == Commands.SERVO ==>
              r.out == Commands.Servo(ParseValue(c.val)) && r.console == c.(cmd := Lower(c.cmd))
    ensures CommandOf(c.cmd) == |Commands.COMMAND_LIST| ==>
              r.out == [CommandList, Prompt] && r.console == Reset(c.(cmd := Lower(c.cmd)))
    ensures CommandOf(c.cmd) == Commands.LIDAR ==>
              var run := Commands.LidarCommand(c.val, l);
              && r.lidar == run.lidar && r.out == run.out
              && (ResetCommandLine in run.out ==> r.console.size == 0)
              && (ResetCommandLine !in run.out ==> r.console == c.(cmd := Lower(c.cmd), val := Lower(c.val)))
  {
    var value := ParseValue(c.val);
    var named := c.(cmd := Lower(c.cmd));
    var i := CommandOf(c.cmd);
    if i == Commands.HELP then
      Handled(named, l, Commands.Help())
    else if i == Commands.SERVO then
      Handled(named, l, Commands.Servo(value))
    else if i == Commands.LIDAR then
      var run := Commands.LidarCommand(named.val, l);
      var lowered := named.(val := run.val);
      Handled(if ResetCommandLine in run.out then Reset(lowered) else lowered, run.lidar, run.out)
    else
      Handled(Reset(named), l, [CommandList, Prompt])
  }

  /** Command names are matched without regard to case, exactly, in the
      order help, servo, lidar. */
  lemma CommandIgnoresCase(cmd: seq<Byte>, i: nat)
    requires i < |Commands.COMMAND_LIST|
    ensures CommandOf(cmd) == i <==> Text(LowerAll(Str(cmd))) == Commands.COMMAND_LIST[i]
  {
    LowerStr(cmd);
    Commands.TablesDistinct();
    Commands.LookupFindsEntry(Commands.COMMAND_LIST, Text(Str(Lower(cmd))), i);
  }

  // ---------------------------------------------------------------------------
  // USB_process

  /** `USB_process(code)`. -2 and -1 explain the error, reset the line and
      prompt; 2 acknowledges the two tokens and runs the command; 0 and 1 do
      nothing. Every handled code clears the received byte. */
  function Process(c: Console, l: Lidar.State, code: int): (r: Handled)
    requires Valid(c) && Lidar.Valid(l)
    ensures Valid(r.console) && Lidar.Valid(r.lidar)
    ensures code == -2 || code == -1 ==>
              && r.lidar == l
              && r.console.size == 0 && r.console.sel == Name && r.console.spaceIdx == 0
              && Str(r.console.cmd) == [] && Str(r.console.val) == []
              && |r.console.cmd| == |c.cmd| && |r.console.val| == |c.val|
              && |r.out| == 2 && r.out[1] == Prompt
    ensures code == -2 ==> r.out[0] == FormatHint
    ensures code == -1 ==> r.out[0] == TooManyChars
    ensures code == 2 ==>
              var m := ProcessMessage(c, l);
              && r.lidar == m.lidar
              && r.console == m.console.(rx := r.console.rx)
              && |r.out| >= 1 && r.out[0] == LineAck(Str(c.cmd), Str(c.val)) && r.out[1..] == m.out
    ensures code == -2 || code == -1 || code == 2 ==>
              r.console.rx.value == NUL && r.console.rx.pending == c.rx.pending
    ensures code != -2 && code != -1 && code != 2 ==> r == Handled(c, l, [])
  {
    ResetEmpties(c);
    if code == -2 then
      Handled(Reset(c).(rx := c.rx.(value := NUL)), l, [FormatHint, Prompt])
    else if code == -1 then
      Handled(Reset(c).(rx := c.rx.(value := NUL)), l, [TooManyChars, Prompt])
    else if code == 2 then
      var m := ProcessMessage(c, l);
      Handled(m.console.(rx := c.rx.(value := NUL)), m.lidar, [LineAck(Str(c.cmd), Str(c.val))] + m.out)
    else
      Handled(c, l, [])
  }

  /** After an error code the line starts over: the next byte typed begins
      a new command name at the start of the name buffer, whatever the
      line held before. */
  lemma ErrorsStartOver(c: Console, l: Lidar.State, code: int, b: Byte)
    requires Valid(c) && Lidar.Valid(l) && (code == -1 || code == -2)
    requires Plain(b) && b != LF
    ensures var r: Idle := Process(c, l, code).console;
            var k := Key(r, b);
            && k.0.size == 1 && k.0.sel == Name && k.0.spaceIdx == 0
            && Str(k.0.cmd) == [b] && Str(k.0.val) == []
            && k.1 == [Echo(b)]
  {
    var r: Idle := Process(c, l, code).console;
    NameKey(r, b);
    var k := Key(r, b).0;
    assert k.cmd == r.cmd[0 := b];
    assert r.cmd[1] == NUL by { ResetEmpties(c); }
    StrUpTo(k.cmd, 1);
    assert k.cmd[..1] == [b];
  }

  // ---------------------------------------------------------------------------
  // Typing a line

  /** Framer states the polling loop runs on. */
  type Idle = c: Console | Valid(c) witness Boot(CLEARED)

  /** One console byte: the receive interrupt fills the mailbox, then one
      `USB_check` call frames it. */
  function Key(c: Idle, b: Byte): (Idle, seq<Event>)
  {
    var r := Check(c.(rx := Usart.Deliver(c.rx, b)));
    (r.console, r.out)
  }

  /** The framer after `bytes`, one `USB_check` each, and what it echoed. */
  function Type(c: Idle, bytes: seq<Byte>): (Idle, seq<Event>)
  {
    Streams.Run<Idle, Byte, Event>(Key, c, bytes)
  }

  /** The echo of a typed string. */
  function Echoes(s: seq<Byte>): (r: seq<Event>)
    ensures |r| == |s|
    decreases |s|
  {
    if s == [] then [] else Echoes(s[..|s| - 1]) + [Echo(s[|s| - 1])]
  }

  /** A byte a token may hold and the console echoes back: not a line end,
      not a delimiter and not a NUL. */
  predicate Plain(b: Byte) {
    b != CR && b != SPACE && b != NUL
  }

  /** A name byte is stored at the current size and echoed. */
  lemma NameKey(c: Idle, b: Byte)
    requires c.sel == Name && c.spaceIdx == 0 && c.size < LINE_LIMIT && c.size < |c.cmd|
    requires Plain(b) && (c.size == 0 ==> b != LF)
    ensures Key(c, b).0 == c.(cmd := c.cmd[c.size := b], size := c.size + 1, rx := Usart.Mailbox(b, false))
    ensures Key(c, b).1 == [Echo(b)]
  {
  }

  /** The first space after the name switches to the value and is written
      one place before the value buffer. */
  lemma SpaceKey(c: Idle)
    requires c.sel == Name && c.spaceIdx == 0 && 0 < c.size < LINE_LIMIT
    ensures Key(c, SPACE).0 ==
              c.(sel := Value, spaceIdx := c.size, size := c.size + 1, rx := Usart.Mailbox(SPACE, false))
    ensures Key(c, SPACE).1 == [StrayWrite(Value, -1), Echo(SPACE)]
  {
  }

  /** A value byte is stored after the bytes of the value so far. */
  lemma ValueKey(c: Idle, b: Byte)
    requires c.sel == Value && c.size < LINE_LIMIT && c.size - c.spaceIdx - 1 < |c.val|
    requires Plain(b)
    ensures Key(c, b).0 ==
              c.(val := c.val[c.size - c.spaceIdx - 1 := b], size := c.size + 1, rx := Usart.Mailbox(b, false))
    ensures Key(c, b).1 == [Echo(b)]
  {
  }

  /** What typing `name` on an empty line leaves: the name stored at the
      start of the name buffer, echoed, the value buffer untouched. */
  predicate NameTyped(c: Idle, name: seq<Byte>, t: (Idle, seq<Event>))
    requires |name| <= |c.cmd|
  {
    && t.0.size == |name| && t.0.sel == Name && t.0.spaceIdx == 0
    && t.0.cmd == name + c.cmd[|name|..] && t.0.val == c.val
    && t.1 == Echoes(name)
  }

  /** The first byte of a name. */
  lemma TypeFirst(c: Idle, x: Byte)
    requires c.size == 0 && Plain(x) && x != LF
    ensures NameTyped(c, [x], Type(c, [x]))
  {
    Streams.RunOne<Idle, Byte, Event>(Key, c, x);
    NameKey(c, x);
    assert c.cmd[0 := x] == [x] + c.cmd[1..];
  }

  /** One more byte of a name, as a step from any state that holds the
      name so far. */
  lemma NameStep(c: Idle, p: seq<Byte>, x: Byte, t: (Idle, seq<Event>))
    requires |p| + 1 <= |c.cmd| && |p| < LINE_LIMIT && |p| > 0
    requires NameTyped(c, p, t) && Plain(x)
    ensures NameTyped(c, p + [x], (Key(t.0, x).0, t.1 + Key(t.0, x).1))
  {
    NameKey(t.0, x);
    assert t.0.cmd[|p| := x] == (p + [x]) + c.cmd[|p| + 1..];
    assert Echoes(p + [x]) == Echoes(p) + [Echo(x)];
  }

  /** One more byte of a name. */
  lemma TypeNext(c: Idle, p: seq<Byte>, x: Byte)
    requires |p| + 1 <= |c.cmd| && |p| < LINE_LIMIT && |p| > 0
    requires NameTyped(c, p, Type(c, p)) && Plain(x)
    ensures NameTyped(c, p + [x], Type(c, p + [x]))
  {
    Streams.RunSnoc<Idle, Byte, Event>(Key, c, p, x);
    NameStep(c, p, x, Type(c, p));
  }

  /** Typing a name on an empty line stores it at the start of the name
      buffer and echoes it. */
  lemma {:induction false} TypeName(c: Idle, name: seq<Byte>)
    requires c.size == 0 && 1 <= |name| <= LINE_LIMIT && |name| <= |c.cmd|
    requires name[0] != LF && forall i | 0 <= i < |name| :: Plain(name[i])
    ensures NameTyped(c, name, Type(c, name))
    decreases |name|
  {
    var n := |name|;
    var p := name[..n - 1];
    assert name == p + [name[n - 1]];
    if p == [] {
      TypeFirst(c, name[0]);
    } else {
      TypeName(c, p);
      TypeNext(c, p, name[n - 1]);
    }
  }

  /** What typing `value` right after the delimiter leaves: the value
      stored at the start of the value buffer, echoed, the name untouched. */
  predicate ValueTyped(c: Idle, value: seq<Byte>, t: (Idle, seq<Event>))
    requires |value| <= |c.val|
  {
    && t.0.size == c.size + |value| && t.0.sel == Value && t.0.spaceIdx == c.spaceIdx
    && t.0.cmd == c.cmd && t.0.val == value + c.val[|value|..]
    && t.1 == Echoes(value)
  }

  /** One more byte of a value, as a step from any state that holds the
      value so far. */
  lemma ValueStep(c: Idle, p: seq<Byte>, x: Byte, t: (Idle, seq<Event>))
    requires c.sel == Value && c.size == c.spaceIdx + 1
    requires c.size + |p| < LINE_LIMIT && |p| < |c.val|
    requires ValueTyped(c, p, t) && Plain(x)
    ensures ValueTyped(c, p + [x], (Key(t.0, x).0, t.1 + Key(t.0, x).1))
  {
    ValueKey(t.0, x);
    assert t.0.val[|p| := x] == (p + [x]) + c.val[|p| + 1..];
    assert Echoes(p + [x]) == Echoes(p) + [Echo(x)];
  }

  /** One more byte of a value. */
  lemma TypeValueNext(c: Idle, p: seq<Byte>, x: Byte)
    requires c.sel == Value && c.size == c.spaceIdx + 1
    requires c.size + |p| < LINE_LIMIT && |p| < |c.val|
    requires ValueTyped(c, p, Type(c, p)) && Plain(x)
    ensures ValueTyped(c, p + [x], Type(c, p + [x]))
  {
    Streams.RunSnoc<Idle, Byte, Event>(Key, c, p, x);
    ValueStep(c, p, x, Type(c, p));
  }

  /** Typing a value right after the delimiter stores it at the start of the
      value buffer and echoes it. */
  lemma {:induction false} TypeValue(c: Idle, value: seq<Byte>)
    requires c.sel == Value && c.size == c.spaceIdx + 1
    requires c.size + |value| <= LINE_LIMIT && |value| <= |c.val|
    requires forall i | 0 <= i < |value| :: Plain(value[i])
    ensures ValueTyped(c, value, Type(c, value))
    decreases |value|
  {
    if value == [] {
      assert value + c.val[0..] == c.val;
    } else {
      var n := |value|;
      var p := value[..n - 1];
      assert value == p + [value[n - 1]];
      TypeValue(c, p);
      TypeValueNext(c, p, value[n - 1]);
    }
  }

  /** A buffer holding `s` followed by a NUL holds the string `s`. */
  lemma {:induction false} HeldString(buf: seq<Byte>, s: seq<Byte>)
    requires |s| < |buf| && buf[..|s|] == s && buf[|s|] == NUL
    requires forall i | 0 <= i < |s| :: s[i] != NUL
    ensures Str(buf) == s
    decreases |s|
  {
    if s != [] {
      HeldString(buf[1..], s[1..]);
    }
  }

  /** Typing `name`, a space and `value` on an empty line splits the line at
      the space: the name buffer then holds `name`, the value buffer holds
      `value`, everything typed is echoed, and the space itself is written
      out of bounds just before the value buffer. This needs the buffers to
      be clear right after where each token ends, as they are after a reset
      when the tokens are shorter than 32 bytes. */
  lemma TypeLine(c: Idle, name: seq<Byte>, value: seq<Byte>)
    requires c.size == 0
    requires 1 <= |name| && |name| + 1 + |value| <= LINE_LIMIT
    requires |name| < |c.cmd| && c.cmd[|name|] == NUL
    requires |value| < |c.val| && c.val[|value|] == NUL
    requires name[0] != LF
    requires forall i | 0 <= i < |name| :: Plain(name[i])
    requires forall i | 0 <= i < |value| :: Plain(value[i])
    ensures var t := Type(c, name + [SPACE] + value);
            && Str(t.0.cmd) == name && Str(t.0.val) == value
            && t.0.size == |name| + 1 + |value| && t.0.sel == Value && t.0.spaceIdx == |name|
            && t.1 == Echoes(name) + [StrayWrite(Value, -1), Echo(SPACE)] + Echoes(value)
  {
    TypeName(c, name);
    var a := Type(c, name).0;
    SpaceKey(a);
    var b := Key(a, SPACE).0;
    TypeValue(b, value);
    Streams.RunSnoc<Idle, Byte, Event>(Key, c, name, SPACE);
    Streams.RunAppend<Idle, Byte, Event>(Key, c, name + [SPACE], value);
    var t := Type(b, value).0;
    HeldString(t.cmd, name);
    HeldString(t.val, value);
  }

  /** A line feed on a line that already holds bytes is stored and echoed
      like any other byte; only on an empty line is it dropped. */
  lemma LineFeedStored(c: Console)
    requires Valid(c) && c.rx.pending && c.rx.value == LF
    ensures Check(c).code == 0 <==> c.size == 0
    ensures 0 < c.size < LINE_LIMIT ==>
              Check(c).code == 1 && Check(c).console.size == c.size + 1
              && Check(c).out[|Check(c).out| - 1] == Echo(LF)
  {
  }

  /** A NUL typed into a line is stored like any other byte but sends
      nothing back, and since the name is read up to its first NUL, a NUL
      typed into the name cuts the name short there. */
  lemma NulStoredSilently(c: Console)
    requires Valid(c) && c.rx.pending && c.rx.value == NUL
    requires 0 < c.size < LINE_LIMIT && c.sel == Name && c.size < |c.cmd|
    ensures var r := Check(c);
            && r.code == 1 && r.out == [] && r.console.size == c.size + 1
            && r.console.cmd == c.cmd[c.size := NUL]
            && Str(r.console.cmd) == Str(c.cmd[..c.size])
  {
    var r := Check(c).console;
    StrUpTo(r.cmd, c.size);
  }

  // ---------------------------------------------------------------------------
  // The console half of one main-loop pass

  /** `USB_process(USB_check())`: frame the pending byte, if any, and handle
      the code it produced. */
  function Poll(c: Console, l: Lidar.State): (r: Handled)
    requires Valid(c) && Lidar.Valid(l)
    ensures Valid(r.console) && Lidar.Valid(r.lidar)
    ensures !r.console.rx.pending
    ensures !c.rx.pending ==> r == Handled(c, l, [])
    ensures c.rx.pending && c.rx.value != CR ==> r.lidar == l
  {
    var k := Check(c);
    var h := Process(k.console, l, k.code);
    Handled(h.console, h.lidar, k.out + h.out)
  }

  /** A carriage return is answered with a line end and leaves the line
      as it is. */
  lemma CarriageReturn(d: Console)
    requires Valid(d) && d.rx.pending && d.rx.value == CR
    ensures Check(d) == Checked(d.(rx := Usart.Take(d.rx)), 2, [LineEnd])
  {
  }

  /** A line whose name reads "servo" in any case and whose value is a
      decimal number runs the servo command on that number, keeping the
      line and the sensor state. */
  lemma ServoMessage(c: Console, l: Lidar.State)
    requires Valid(c) && Lidar.Valid(l)
    requires Text(LowerAll(Str(c.cmd))) == "servo"
    requires Str(c.val) != [] && AllDigits(Str(c.val))
    ensures var m := ProcessMessage(c, l);
            && m.out == Commands.Servo(Decimal(Str(c.val)))
            && m.lidar == l && m.console.size == c.size
  {
    CommandIgnoresCase(c.cmd, Commands.SERVO);
    ParseDigits(c.val);
  }

  /** A carriage return on a line whose name reads "servo" in any case and
      whose value is a decimal number acknowledges both tokens and runs the
      servo command on that number; the line is kept. */
  lemma EnterServo(d: Console, l: Lidar.State)
    requires Valid(d) && Lidar.Valid(l)
    requires d.rx.pending && d.rx.value == CR
    requires Text(LowerAll(Str(d.cmd))) == "servo"
    requires Str(d.val) != [] && AllDigits(Str(d.val))
    ensures var r := Poll(d, l);
            && r.out == [LineEnd, LineAck(Str(d.cmd), Str(d.val))] + Commands.Servo(Decimal(Str(d.val)))
            && r.lidar == l && r.console.size == d.size
  {
    CarriageReturn(d);
    var c := d.(rx := Usart.Take(d.rx));
    ServoMessage(c, l);
    var h := Process(c, l, 2);
    assert h.out == [LineAck(Str(d.cmd), Str(d.val))] + h.out[1..];
  }

  /** A name reading "servo" does not start with a line feed. */
  lemma ServoNameStarts(name: seq<Byte>)
    requires Text(LowerAll(name)) == "servo"
    ensures |name| == 5 && name[0] != LF
  {
    assert Text(LowerAll(name))[0] == 's';
  }

  /** Digits are neither delimiters, line ends nor NUL. */
  lemma DigitsArePlain(digits: seq<Byte>)
    requires AllDigits(digits)
    ensures forall i | 0 <= i < |digits| :: Plain(digits[i])
  {
  }

  /** End to end: after typing a name that reads "servo" in any case, a
      space and a decimal number, the carriage return acknowledges both
      tokens and sets the servo to that angle exactly when it is at most
      180. The line is not reset afterwards: the next bytes typed extend
      this line. */
  lemma ServoLine(c: Idle, l: Lidar.State, name: seq<Byte>, digits: seq<Byte>)
    requires Lidar.Valid(l)
    requires c.size == 0
    requires 1 <= |name| && |name| + 1 + |digits| <= LINE_LIMIT
    requires |name| < |c.cmd| && c.cmd[|name|] == NUL
    requires |digits| < |c.val| && c.val[|digits|] == NUL
    requires forall i | 0 <= i < |name| :: Plain(name[i])
    requires Text(LowerAll(name)) == "servo"
    requires digits != [] && AllDigits(digits)
    ensures var t := Type(c, name + [SPACE] + digits).0;
            var r := Poll(t.(rx := Usart.Deliver(t.rx, CR)), l);
            && r.out == [LineEnd, LineAck(name, digits)] + Commands.Servo(Decimal(digits))
            && (SetAngle(Decimal(digits)) in r.out <==> Decimal(digits) <= 180)
            && r.lidar == l
            && r.console.size == |name| + 1 + |digits|
  {
    ServoNameStarts(name);
    DigitsArePlain(digits);
    TypeLine(c, name, digits);
    var t := Type(c, name + [SPACE] + digits).0;
    ServoEntered(t, l, name, digits);
  }

  /** The carriage return on any line holding a "servo" name and a decimal
      value, however it was typed. */
  lemma ServoEntered(t: Console, l: Lidar.State, name: seq<Byte>, digits: seq<Byte>)
    requires Valid(t) && Lidar.Valid(l)
    requires Str(t.cmd) == name && Str(t.val) == digits
    requires Text(LowerAll(name)) == "servo"
    requires digits != [] && AllDigits(digits)
    ensures var r := Poll(t.(rx := Usart.Deliver(t.rx, CR)), l);
            && r.out == [LineEnd, LineAck(name, digits)] + Commands.Servo(Decimal(digits))
            && (SetAngle(Decimal(digits)) in r.out <==> Decimal(digits) <= 180)
            && r.lidar == l
            && r.console.size == t.size
  {
    var d := t.(rx := Usart.Deliver(t.rx, CR));
    EnterServo(d, l);
    ServoReplyAngle(name, digits);
  }

  /** After the line end and the acknowledgement, the servo reply to a
      decimal value sets the angle exactly when the value is at most 180. */
  lemma ServoReplyAngle(name: seq<Byte>, digits: seq<Byte>)
    requires AllDigits(digits)
    ensures var out := [LineEnd, LineAck(name, digits)] + Commands.Servo(Decimal(digits));
            SetAngle(Decimal(digits)) in out <==> Decimal(digits) <= 180
  {
    DecimalOfDigits(digits);
    assert SetAngle(Decimal(digits)) !in [LineEnd, LineAck(name, digits)];
  }
}

=== FILE: cstr.dfy ===
/** The C-library view of a fixed byte buffer: the NUL-terminated string it
    holds, `tolower` in the "C" locale, and the in-place lower-casing loop
    `for (i = 0; buf[i]; i++) buf[i] = tolower(buf[i]);` used on both console
    tokens. A buffer with no NUL is read up to its end. */
module CStr {
  import opened Bytes

  const NUL: Byte := 0

  /** The string a buffer holds: every byte before the first NUL. */
  function Str(buf: seq<Byte>): (r: seq<Byte>)
    ensures |r| <= |buf| && r == buf[..|r|]
    ensures forall i | 0 <= i < |r| :: r[i] != NUL
    ensures |r| < |buf| ==> buf[|r|] == NUL
  {
    if buf == [] || buf[0] == NUL then [] else [buf[0]] + Str(buf[1..])
  }

  /** `tolower` in the "C" locale: only 'A'..'Z' change. */
  function ToLower(b: Byte): (r: Byte)
    ensures 'A' as int <= b <= 'Z' as int ==> r == b + 32
    ensures !('A' as int <= b <= 'Z' as int) ==> r == b
  {
    if 'A' as int <= b <= 'Z' as int then b + 32 else b
  }

  /** The buffer after lower-casing it in place up to its first NUL. */
  function Lower(buf: seq<Byte>): (r: seq<Byte>)
    ensures |r| == |buf|
    ensures forall i | 0 <= i < |buf| ::
              r[i] == if i < |Str(buf)| then ToLower(buf[i]) else buf[i]
  {
    if buf == [] || buf[0] == NUL then buf else [ToLower(buf[0])] + Lower(buf[1..])
  }

  /** A NUL at index `k` ends the string within the first `k` bytes. */
  lemma {:induction false} StrUpTo(buf: seq<Byte>, k: nat)
    requires k < |buf| && buf[k] == NUL
    ensures Str(buf) == Str(buf[..k])
    decreases k
  {
    if k > 0 && buf[0] != NUL {
      StrUpTo(buf[1..], k - 1);
      assert buf[1..][..k - 1] == buf[..k][1..];
    }
  }

  /** Lower-casing maps the held string byte by byte and keeps its length. */
  lemma {:induction false} LowerStr(buf: seq<Byte>)
    ensures Str(Lower(buf)) == LowerAll(Str(buf))
  {
    if buf == [] || buf[0] == NUL {
    } else {
      LowerStr(buf[1..]);
      assert Lower(buf)[1..] == Lower(buf[1..]);
    }
  }

  /** A string with every byte lower-cased. */
  function LowerAll(s: seq<Byte>): (r: seq<Byte>)
    ensures |r| == |s|
    ensures forall i | 0 <= i < |s| :: r[i] == ToLower(s[i])
  {
    seq(|s|, i requires 0 <= i < |s| => ToLower(s[i]))
  }

  /** Bytes read as characters (`char` is unsigned on the target). */
  function Text(s: seq<Byte>): (r: string)
    ensures |r| == |s|
    ensures forall i | 0 <= i < |s| :: r[i] as int == s[i]
  {
    seq(|s|, i requires 0 <= i < |s| => s[i] as char)
  }
}

=== FILE: debugger.dfy ===
/** The firmware as a whole (main.c): start-up (`LIDAR_init`, `SERVO_init`,
    `USB_init`), then the console framer and the sensor decoder polled in
    turn by the main loop, fed by their receive interrupts and by the system
    tick. A command-line reset the sensor side asks for (`USB_reset_command`
    called from lidar.c) is applied to the console here. */
module Debugger {
  import opened Bytes
  import opened Events
  import Usart
  import CStr
  import Lidar
  import Console
  import Streams

  datatype Board = Board(console: Console.Console, lidar: Lidar.State)

  predicate Valid(s: Board) {
    Console.Valid(s.console) && Lidar.Valid(s.lidar)
  }

  /** Start-up on zero-initialised globals. `LIDAR_init` ends in a reset
      request: `A5 40` goes out, the command line is reset and the 2-tick
      wait is armed. `SERVO_init` sets the servo to angle 0, and `USB_init`
      sends the first prompt. */
  function Boot(capacity: nat): (r: (Board, seq<Event>))
    requires capacity >= Console.CLEARED
    ensures Valid(r.0)
    ensures r.0.console.size == 0 && r.0.console.sel == Token.Name && !r.0.console.rx.pending
    ensures CStr.Str(r.0.console.cmd) == [] && CStr.Str(r.0.console.val) == []
    ensures r.0.lidar.request == Lidar.REQ_RESET && r.0.lidar.byteCount == 0
    ensures r.0.lidar.timing && r.0.lidar.timer == Lidar.RESET_WAIT && !r.0.lidar.rx.pending
    ensures Lidar.Frames(r.1) == [[Lidar.START_BIT, Lidar.REQ_RESET]]
    ensures SetAngle(0) in r.1 && forall e | e in r.1 && e.SetAngle? :: e == SetAngle(0)
    ensures |r.1| > 0 && r.1[|r.1| - 1] == Prompt
  {
    var sensor := Lidar.Request(Lidar.Initial(), Lidar.REQ_RESET);
    var console := Console.Boot(capacity);
    Console.ResetEmpties(console);
    Lidar.FramesAppend(sensor.out, [SetAngle(0), Prompt]);
    assert Lidar.Frames([SetAngle(0), Prompt]) == [] by {
      assert [SetAngle(0), Prompt][1..] == [Prompt];
    }
    (Board(Console.Reset(console), sensor.state), sensor.out + [SetAngle(0), Prompt])
  }

  /** The state `main` enters its loop in, with the smallest token buffers. */
  const Start: Board := Boot(Console.CLEARED).0

  type Live = s: Board | Valid(s) witness Start

  /** One pass of the main loop: `USB_process(USB_check())`, then
      `LIDAR_process()`. A reply that completes in the sensor step resets the
      command line. The console's events come before the sensor's. */
  function Pass(s: Board): (r: (Board, seq<Event>))
    requires Valid(s)
    ensures Valid(r.0)
    ensures !r.0.console.rx.pending
    ensures !s.console.rx.pending && !s.lidar.rx.pending && !Lidar.Expired(s.lidar) ==> r == (s, [])
    ensures Lidar.Stalled(s.lidar) && !s.console.rx.pending ==> r == (s, [])
  {
    var h := Console.Poll(s.console, s.lidar);
    var p := Lidar.Process(h.lidar);
    var c := if ResetCommandLine in p.out then Console.Reset(h.console) else h.console;
    (Board(c, p.state), h.out + p.out)
  }

  /** What drives the system: a byte arriving on either link, a system
      tick, or one pass of the main loop. */
  datatype Stimulus = ConsoleByte(b: Byte) | SensorByte(b: Byte) | Tick | Loop

  /** The effect of one stimulus. The receive interrupts only fill their
      mailbox and the tick only counts the timer down; all the work is done
      by the loop. */
  function Apply(s: Live, x: Stimulus): (r: (Live, seq<Event>))
    ensures !x.Loop? ==> r.1 == []
    ensures x.ConsoleByte? ==>
              && r.0.lidar == s.lidar && r.0.console == s.console.(rx := r.0.console.rx)
              && r.0.console.rx.pending && r.0.console.rx.value == x.b
    ensures x.SensorByte? ==>
              && r.0.console == s.console && r.0.lidar == s.lidar.(rx := r.0.lidar.rx)
              && r.0.lidar.rx.pending && r.0.lidar.rx.value == x.b
    ensures x.Tick? ==>
              && r.0.console == s.console && r.0.lidar == s.lidar.(timer := r.0.lidar.timer)
              && (s.lidar.timer > 0 ==> r.0.lidar.timer + 1 == s.lidar.timer)
              && (s.lidar.timer == 0 ==> r.0.lidar.timer == 0)
    ensures x.Loop? ==> !r.0.console.rx.pending
  {
    match x
    case ConsoleByte(b) => (s.(console := s.console.(rx := Usart.Deliver(s.console.rx, b))), [])
    case SensorByte(b) => (s.(lidar := s.lidar.(rx := Usart.Deliver(s.lidar.rx, b))), [])
    case Tick => (s.(lidar := Lidar.OnTick(s.lidar)), [])
    case Loop => Pass(s)
  }

  /** The system after a sequence of stimuli, and every event on the way. */
  function Drive(s: Live, xs: seq<Stimulus>): (Live, seq<Event>)
  {
    Streams.Run<Live, Stimulus, Event>(Apply, s, xs)
  }

  function Ticks(k: nat): (r: seq<Stimulus>)
    ensures |r| == k && forall i | 0 <= i < k :: r[i] == Tick
  {
    seq(k, _ => Tick)
  }

  /** `k` ticks count the sensor timer down to `max(0, timer - k)` and do
      nothing else: no event, the console and the wait flag untouched. */
  lemma {:induction false} TicksCountDown(s: Live, k: nat)
    ensures Drive(s, Ticks(k)).1 == []
    ensures Drive(s, Ticks(k)).0 ==
              s.(lidar := s.lidar.(timer := if k <= s.lidar.timer then s.lidar.timer - k else 0))
    decreases k
  {
    if k > 0 {
      assert Ticks(k) == Ticks(k - 1) + [Tick];
      TicksCountDown(s, k - 1);
      Streams.RunSnoc<Live, Stimulus, Event>(Apply, s, Ticks(k - 1), Tick);
    }
  }

  /** A byte typed while an earlier one is still waiting in the console
      mailbox replaces it: the earlier byte never reaches the framer. */
  lemma TypingAheadLosesBytes(s: Live, a: Byte, b: Byte)
    ensures Drive(s, [ConsoleByte(a), ConsoleByte(b)]) == Drive(s, [ConsoleByte(b)])
  {
    Streams.RunOne<Live, Stimulus, Event>(Apply, s, ConsoleByte(b));
    Streams.RunSnoc<Live, Stimulus, Event>(Apply, s, [ConsoleByte(a)], ConsoleByte(b));
    Streams.RunOne<Live, Stimulus, Event>(Apply, s, ConsoleByte(a));
    Usart.DeliverOverwrites(s.console.rx, a, b);
  }

  /** Once the decoder has stalled, no amount of ticking or looping moves it
      again: with the console quiet, the system stays exactly where it is. */
  lemma {:induction false} StallSurvivesLoops(s: Live, k: nat)
    requires Lidar.Stalled(s.lidar) && !s.console.rx.pending
    ensures Drive(s, seq(k, _ => Loop)) == (s, [])
    decreases k
  {
    if k > 0 {
      var xs := seq(k - 1, _ => Loop);
      assert seq(k, _ => Loop) == xs + [Loop];
      StallSurvivesLoops(s, k - 1);
      Streams.RunSnoc<Live, Stimulus, Event>(Apply, s, xs, Loop);
    }
  }

  /** Start-up is announced on the console once the reset wait has passed:
      before two ticks a loop pass does nothing, and the first pass after
      them reports the reset and prompts, with the console left empty. */
  lemma BootResetReported(capacity: nat)
    requires capacity >= Console.CLEARED
    ensures var b: Live := Boot(capacity).0;
            && Drive(b, [Tick, Loop]).1 == []
            && Drive(b, Ticks(2) + [Loop]).1 == [SilentDone(Lidar.REQ_RESET), Prompt]
            && !Drive(b, Ticks(2) + [Loop]).0.lidar.timing
            && Drive(b, Ticks(2) + [Loop]).0.console == b.console
  {
    var b: Live := Boot(capacity).0;
    TicksCountDown(b, 1);
    assert Ticks(1) == [Tick];
    Streams.RunSnoc<Live, Stimulus, Event>(Apply, b, [Tick], Loop);
    TicksCountDown(b, 2);
    Streams.RunSnoc<Live, Stimulus, Event>(Apply, b, Ticks(2), Loop);
  }

  /** A sensor reply that resets the command line does so even when a line
      is half typed: whatever the console held, it is empty after the pass. */
  lemma ReplyClearsConsole(s: Live)
    requires !s.console.rx.pending && ResetCommandLine in Lidar.Process(s.lidar).out
    ensures Pass(s).0.console.size == 0 && Pass(s).0.console.sel == Token.Name
    ensures Pass(s).1 == Lidar.Process(s.lidar).out
  {
  }
}

=== FILE: events.dfy ===
/** Everything the core does to the outside world, as abstract events: bytes
    put on the sensor link, messages rendered on the console (carrying the
    decoded fields, not the formatted text), actuator actions, the one call
    between components (`USB_reset_command` invoked from the sensor side and
    the command handlers), and memory writes the C code performs outside its
    buffers. */
module Events {
  import opened Bytes

  /** Which console token buffer a write was aimed at. */
  datatype Token = Name | Value

  /** The health status byte as `LIDAR_RES_get_health` names it. */
  datatype HealthStatus = Good | Warning | Faulted | UnknownStatus

  datatype Event =
    // sensor link
    | Transmit(frame: seq<Byte>)
    // console link
    | Echo(ch: Byte)                      // acknowledgement of a stored byte
    | LineEnd                             // "\r\n" answered to a carriage return
    | Prompt                              // "CMD?"
    | FormatHint                          // usage text after a second space
    | TooManyChars                        // line overflow message
    | LineAck(name: seq<Byte>, value: seq<Byte>)  // "CMD: [..], [..]"
    | CommandList                         // the listing of the command table
    | PayloadList                         // the listing of the sensor payload table
    | AngleRejected                       // servo value outside 0..180
    | AngleAccepted(degrees: int)         // "Setting servo angle to .."
    | Announce(payload: nat)              // the message printed before payload #n runs
    | SilentDone(opcode: Byte)            // "LiDAR stopped" / "LiDAR reset"
    | ScanPoint(quality: nat, angle: nat, distance: nat)
    | DeviceInfo(model: Byte, firmwareMinor: Byte, firmwareMajor: Byte,
                 hardware: Byte, serial: seq<Byte>)
    | Health(status: HealthStatus, errorCode: nat)
    | SampleRate(standard: nat, express: nat)
    // actuators
    | SetAngle(degrees: int)
    | MotorStart
    | MotorStop
    // call into the console component
    | ResetCommandLine
    // writes the C code makes outside its arrays (undefined behaviour there)
    | Overrun(index: int)                 // DATA_RESPONSE[index], index >= 1080
    | StrayWrite(token: Token, index: int)  // cmd[index] / val[index] out of range
}

=== FILE: lidar.dfy ===
/** The RPLIDAR side of the debugger (lidar.c): the two-byte requests, the
    per-byte response decoder `LIDAR_process`, and the completion routing that
    hands a finished payload to its renderer. Each request remembers which
    opcode is outstanding; the decoder rebuilds a 7-byte response descriptor
    and then stores payload bytes until `7 + (response_info & 0x3FFFFFFF)`
    bytes have been counted. Stop and reset get no reply: their completion is
    inferred when the tick-driven timer they arm runs out. */
module Lidar {
  import opened Bytes
  import opened Events
  import Usart
  import Timer
  import LidarResponses

  const START_BIT: Byte := 0xA5
  const REQ_STOP: Byte := 0x25
  const REQ_RESET: Byte := 0x40
  const REQ_SCAN: Byte := 0x20
  const REQ_EXPRESS_SCAN: Byte := 0x82
  const REQ_FORCE_SCAN: Byte := 0x21
  const REQ_GET_INFO: Byte := 0x50
  const REQ_GET_HEALTH: Byte := 0x52
  const REQ_GET_SAMPLERATE: Byte := 0x59

  const RESP_DESC_SIZE: nat := 7
  const MAX_RESPONSE_SIZE: nat := 1080
  /** `response_info & 0x3FFFFFFF` keeps the low 30 bits. */
  const LENGTH_LIMIT: nat := 0x4000_0000
  const SCAN_RECORD_SIZE: nat := 5

  /** Ticks (1 ms each) the sensor needs after a stop / a reset. */
  const STOP_WAIT: nat := 1
  const RESET_WAIT: nat := 2

  predicate IsOpcode(op: Byte) {
    || op == REQ_STOP || op == REQ_RESET || op == REQ_SCAN || op == REQ_EXPRESS_SCAN
    || op == REQ_FORCE_SCAN || op == REQ_GET_INFO || op == REQ_GET_HEALTH
    || op == REQ_GET_SAMPLERATE
  }

  /** The two requests the sensor never answers. */
  predicate IsSilent(op: Byte) {
    op == REQ_STOP || op == REQ_RESET
  }

  /** The requests answered by one payload that the decoder renders and closes. */
  predicate IsSingleReply(op: Byte) {
    op == REQ_GET_INFO || op == REQ_GET_HEALTH || op == REQ_GET_SAMPLERATE
  }

  function WaitFor(op: Byte): nat
    requires IsSilent(op)
  {
    if op == REQ_STOP then STOP_WAIT else RESET_WAIT
  }

  /** `struct response_descriptor`. */
  datatype Descriptor = Descriptor(start1: Byte, start2: Byte, responseInfo: Word, dataType: Byte)

  /** The payload length a descriptor declares: its low 30 bits. */
  function DeclaredLength(d: Descriptor): (n: nat)
    ensures n < LENGTH_LIMIT
    ensures n == WordValue(d.responseInfo) % LENGTH_LIMIT
  {
    var w := d.responseInfo;
    w.lane0 + w.lane1 * 0x100 + w.lane2 * 0x1_0000 + (w.lane3 % 64) * 0x100_0000
  }

  /** The globals of lidar.c, with the sensor link's receive mailbox. */
  datatype State = State(
    request: Byte,        // lidar_request: the opcode last sent
    byteCount: U32Value,  // byte_count: bytes counted for the current response
    desc: Descriptor,     // resp_desc
    data: seq<Byte>,      // DATA_RESPONSE
    timer: nat,           // lidar_timer: ticks left in a silent wait
    timing: bool,         // lidar_timing: a silent wait is pending
    rx: Usart.Mailbox)    // lidar_received_value / lidar_newData_flag

  predicate Valid(s: State) {
    |s.data| == MAX_RESPONSE_SIZE && s.timer < 256
  }

  /** Power-on: every global is zero. */
  function Initial(): (s: State)
    ensures Valid(s)
  {
    State(0, 0, Descriptor(0, 0, Word(0, 0, 0, 0), 0), seq(MAX_RESPONSE_SIZE, _ => 0), 0, false, Usart.Empty)
  }

  /** A new state and what the step did to the outside world. */
  datatype Step = Step(state: State, out: seq<Event>)

  /** The frames put on the sensor link, in order. */
  function Frames(out: seq<Event>): (r: seq<seq<Byte>>)
    ensures |r| <= |out|
  {
    if out == [] then []
    else (if out[0].Transmit? then [out[0].frame] else []) + Frames(out[1..])
  }

  /** The frames of two event runs in a row are the frames of each. */
  lemma {:induction false} FramesAppend(a: seq<Event>, b: seq<Event>)
    ensures Frames(a + b) == Frames(a) + Frames(b)
    decreases |a|
  {
    if a == [] {
      assert a + b == b;
    } else {
      FramesAppend(a[1..], b);
      assert (a + b)[0] == a[0];
      assert (a + b)[1..] == a[1..] + b;
    }
  }

  /** `data[j..j+|p|]` replaced by `p`. */
  function Written(data: seq<Byte>, j: nat, p: seq<Byte>): (r: seq<Byte>)
    requires j + |p| <= |data|
    ensures |r| == |data|
  {
    data[..j] + p + data[j + |p|..]
  }

  /** What `Written` holds where: `p` in its window, `data` outside it. */
  lemma WrittenAt(data: seq<Byte>, j: nat, p: seq<Byte>)
    requires j + |p| <= |data|
    ensures forall i | 0 <= i < |p| :: Written(data, j, p)[j + i] == p[i]
    ensures forall i | 0 <= i < |data| && !(j <= i < j + |p|) :: Written(data, j, p)[i] == data[i]
  {
  }

  // ---------------------------------------------------------------------------
  // Requests: LIDAR_REQ_*

  /** `LIDAR_REQ_<op>`: send `[0xA5, op]`, make `op` the outstanding request and
      restart the byte count. Stop and reset also reset the console command
      line and arm the silent-completion timer (1 and 2 ticks); stop alone
      drops any byte waiting in the receive mailbox. */
  function Request(s: State, op: Byte): (r: Step)
    requires Valid(s) && IsOpcode(op)
    ensures Valid(r.state)
    ensures Frames(r.out) == [[START_BIT, op]]
    ensures r.state.request == op && r.state.byteCount == 0
    ensures r.state.desc == s.desc && r.state.data == s.data
    ensures IsSilent(op) ==> r.state.timing && r.state.timer == WaitFor(op)
    ensures !IsSilent(op) ==> r.state.timing == s.timing && r.state.timer == s.timer
    ensures r.state.rx == if op == REQ_STOP then Usart.Empty else s.rx
    ensures ResetCommandLine in r.out <==> IsSilent(op)
    ensures forall e | e in r.out :: e.Transmit? || e.ResetCommandLine?
  {
    var sent := s.(request := op, byteCount := 0);
    var frame := [Transmit([START_BIT, op])];
    if op == REQ_STOP then
      Step(sent.(rx := Usart.Empty, timer := STOP_WAIT, timing := true), [ResetCommandLine] + frame)
    else if op == REQ_RESET then
      Step(sent.(timer := RESET_WAIT, timing := true), [ResetCommandLine] + frame)
    else
      Step(sent, frame)
  }

  /** Sending the same request twice leaves the decoder exactly where one
      send leaves it: nothing of the first survives to merge with the second. */
  lemma RequestIdempotent(s: State, op: Byte)
    requires Valid(s) && IsOpcode(op)
    ensures Request(Request(s, op).state, op).state == Request(s, op).state
    ensures Request(Request(s, op).state, op).out == Request(s, op).out
  {
  }

  // ---------------------------------------------------------------------------
  // The tick

  /** `SysTick_Handler`: only `lidar_timer` moves, down by one and never
      below zero; `lidar_timing` is left for the decoder to clear. */
  function OnTick(s: State): (r: State)
    requires Valid(s)
    ensures Valid(r)
    ensures r == s.(timer := r.timer)
    ensures s.timer > 0 ==> r.timer + 1 == s.timer
    ensures s.timer == 0 ==> r.timer == 0
  {
    s.(timer := Timer.Tick(s.timer))
  }

  function AfterTicks(s: State, k: nat): (r: State)
    requires Valid(s)
    ensures Valid(r)
    decreases k
  {
    if k == 0 then s else AfterTicks(OnTick(s), k - 1)
  }

  /** `k` ticks count the timer down to `max(0, timer - k)` and touch nothing
      else; in particular `lidar_timing` stays set, so only the decoder can
      acknowledge an expiry. */
  lemma {:induction false} TicksOnlyMoveTimer(s: State, k: nat)
    requires Valid(s)
    ensures AfterTicks(s, k) == s.(timer := if k <= s.timer then s.timer - k else 0)
    decreases k
  {
    if k > 0 {
      TicksOnlyMoveTimer(OnTick(s), k - 1);
    }
  }

  // ---------------------------------------------------------------------------
  // The decoder: LIDAR_process

  /** The silent wait has run out but has not been acknowledged yet. */
  predicate Expired(s: State) {
    s.timer == 0 && s.timing
  }

  /** Expired while the outstanding request is not one that waits: the guard
      at the top of `LIDAR_process` then returns on every call. */
  predicate Stalled(s: State) {
    Expired(s) && !IsSilent(s.request)
  }

  /** `LIDAR_process`, one call. An expired wait is handled first and consumes
      no byte: for stop and reset it is acknowledged once, for any other
      outstanding request the call returns with nothing changed. Otherwise a
      pending byte, if any, is taken from the mailbox and decoded. */
  function Process(s: State): (r: Step)
    requires Valid(s)
    ensures Valid(r.state)
    ensures Expired(s) && IsSilent(s.request) ==>
              r == Step(s.(byteCount := 0, timing := false), [SilentDone(s.request), Prompt])
    ensures Stalled(s) ==> r == Step(s, [])
    ensures !Expired(s) && !s.rx.pending ==> r == Step(s, [])
    ensures !Expired(s) && s.rx.pending ==>
              && r.state.rx == Usart.Take(s.rx)
              && r.state.request == s.request
              && r.state.timer == s.timer && r.state.timing == s.timing
  {
    if Expired(s) then
      if IsSilent(s.request) then SilentCompletion(s) else Step(s, [])
    else if !s.rx.pending then Step(s, [])
    else Consume(s.(rx := Usart.Take(s.rx)), s.rx.value)
  }

  /** `LIDAR_RES_stop` / `LIDAR_RES_reset`: once the timer reads zero, close
      the wait, restart the byte count and prompt for the next command. */
  function SilentCompletion(s: State): (r: Step)
    requires Valid(s) && IsSilent(s.request)
    ensures Valid(r.state)
    ensures s.timer == 0 ==>
              && r.state.byteCount == 0 && !r.state.timing
              && r.state == s.(byteCount := r.state.byteCount, timing := r.state.timing)
              && r.out == [SilentDone(s.request), Prompt]
    ensures s.timer > 0 ==> r == Step(s, [])
  {
    if s.timer == 0 then
      Step(s.(byteCount := 0, timing := false), [SilentDone(s.request), Prompt])
    else
      Step(s, [])
  }

  /** One byte taken from the mailbox: a descriptor byte while fewer than
      seven have been counted, a payload byte after that. Neither touches the
      outstanding request, the wait or the mailbox. */
  function Consume(s: State, b: Byte): (r: Step)
    requires Valid(s)
    ensures Valid(r.state)
    ensures r.state.request == s.request && r.state.rx == s.rx
    ensures r.state.timer == s.timer && r.state.timing == s.timing
  {
    if s.byteCount < RESP_DESC_SIZE then Step(DescriptorByte(s, b), []) else PayloadByte(s, b)
  }

  /** The descriptor step of `LIDAR_process` (`case 0` .. `case 6`). */
  function DescriptorByte(s: State, b: Byte): (r: State)
    requires Valid(s) && s.byteCount < RESP_DESC_SIZE
    ensures Valid(r)
  {
    s.(desc := DescriptorField(s.desc, s.byteCount, b), byteCount := s.byteCount + 1)
  }

  /** Where descriptor byte number `j` goes: the start bytes, then
      `response_info` (byte 2 overwrites it, bytes 3..5 are or-ed into
      lanes 1..3), then the data type. */
  function DescriptorField(d: Descriptor, j: nat, b: Byte): Descriptor
    requires j < RESP_DESC_SIZE
  {
    if j == 0 then d.(start1 := b)
    else if j == 1 then d.(start2 := b)
    else if j == 2 then d.(responseInfo := Word(b, 0, 0, 0))
    else if j == 3 then d.(responseInfo := d.responseInfo.(lane1 := OrByte(d.responseInfo.lane1, b)))
    else if j == 4 then d.(responseInfo := d.responseInfo.(lane2 := OrByte(d.responseInfo.lane2, b)))
    else if j == 5 then d.(responseInfo := d.responseInfo.(lane3 := OrByte(d.responseInfo.lane3, b)))
    else d.(dataType := b)
  }

  /** The expected descriptor after the first `j` of the seven descriptor
      bytes `d` have been consumed on top of `d0`. */
  function DescriptorAfter(d0: Descriptor, d: seq<Byte>, j: nat): Descriptor
    requires |d| == RESP_DESC_SIZE && j <= RESP_DESC_SIZE
  {
    Descriptor(
      if j >= 1 then d[0] else d0.start1,
      if j >= 2 then d[1] else d0.start2,
      InfoAfter(d0.responseInfo, d, j),
      if j >= 7 then d[6] else d0.dataType)
  }

  /** `response_info` after the first `j` descriptor bytes: byte 2
      overwrites whatever it held, so from then on only bytes 2.. count. */
  function InfoAfter(info0: Word, d: seq<Byte>, j: nat): Word
    requires |d| == RESP_DESC_SIZE && j <= RESP_DESC_SIZE
  {
    if j <= 2 then info0
    else if j == 3 then Word(d[2], 0, 0, 0)
    else if j == 4 then Word(d[2], d[3], 0, 0)
    else if j == 5 then Word(d[2], d[3], d[4], 0)
    else Word(d[2], d[3], d[4], d[5])
  }

  /** The payload step: byte number `k = byte_count - 7` is stored at
      `DATA_RESPONSE[k]` (a write past the 1080-byte buffer is reported as an
      overrun instead), the count rises, and the response completes when the
      count reaches `7 + declared length`. */
  function PayloadByte(s: State, b: Byte): (r: Step)
    requires Valid(s) && s.byteCount >= RESP_DESC_SIZE
    ensures Valid(r.state)
    ensures r.state.request == s.request && r.state.rx == s.rx
    ensures r.state.timer == s.timer && r.state.timing == s.timing
    ensures s.byteCount - RESP_DESC_SIZE < MAX_RESPONSE_SIZE ==>
              r.state.data == s.data[s.byteCount - RESP_DESC_SIZE := b]
    ensures s.byteCount - RESP_DESC_SIZE >= MAX_RESPONSE_SIZE ==>
              r.state.data == s.data && |r.out| >= 1 && r.out[0] == Overrun(s.byteCount - RESP_DESC_SIZE)
    ensures r.state.desc == s.desc
    ensures Inc32(s.byteCount) != DeclaredLength(s.desc) + RESP_DESC_SIZE ==>
              && r.state.byteCount == Inc32(s.byteCount)
              && |r.out| <= 1 && (forall e | e in r.out :: e.Overrun?)
  {
    var k := s.byteCount - RESP_DESC_SIZE;
    var stored := if k < MAX_RESPONSE_SIZE then s.data[k := b] else s.data;
    var overrun := if k < MAX_RESPONSE_SIZE then [] else [Overrun(k)];
    var t := s.(data := stored, byteCount := Inc32(s.byteCount));
    if t.byteCount == DeclaredLength(t.desc) + RESP_DESC_SIZE then
      var c := Complete(t);
      Step(c.state, overrun + c.out)
    else
      Step(t, overrun)
  }

  /** The completion routing of `LIDAR_process`, keyed by the outstanding
      request. A scan record is rendered and the count rewound by five so the
      next record reuses the same five bytes; express and force scan are
      unimplemented and leave everything as is; the three single replies are
      rendered, the count restarts and the console gets its prompt and a
      fresh command line; any other request leaves everything as is. Only
      the count ever changes. */
  function Complete(s: State): (r: Step)
    requires Valid(s) && s.byteCount == DeclaredLength(s.desc) + RESP_DESC_SIZE
    ensures Valid(r.state)
    ensures r.state == s.(byteCount := r.state.byteCount)
    ensures s.request == REQ_SCAN ==>
              r.state.byteCount == s.byteCount - SCAN_RECORD_SIZE
              && r.out == LidarResponses.ScanOutput(s.data[..SCAN_RECORD_SIZE])
    ensures IsSingleReply(s.request) ==>
              r.state.byteCount == 0 && |r.out| == 3 && r.out[1..] == [Prompt, ResetCommandLine]
    ensures s.request == REQ_GET_INFO ==> r.out[0] == LidarResponses.DecodeInfo(s.data)
    ensures s.request == REQ_GET_HEALTH ==> r.out[0] == LidarResponses.DecodeHealth(s.data)
    ensures s.request == REQ_GET_SAMPLERATE ==> r.out[0] == LidarResponses.DecodeSampleRate(s.data)
    ensures s.request != REQ_SCAN && !IsSingleReply(s.request) ==> r == Step(s, [])
  {
    if s.request == REQ_SCAN then
      Step(s.(byteCount := s.byteCount - SCAN_RECORD_SIZE),
           LidarResponses.ScanOutput(s.data[..SCAN_RECORD_SIZE]))
    else if s.request == REQ_EXPRESS_SCAN || s.request == REQ_FORCE_SCAN then
      Step(s, [])  // LIDAR_RES_express_scan / LIDAR_RES_force_scan are empty
    else if IsSingleReply(s.request) then
      Step(s.(byteCount := 0), [Reply(s.request, s.data), Prompt, ResetCommandLine])
    else
      Step(s, [])
  }

  /** The renderer a single-reply request selects: the kind of report
      printed tells which of the three requests was answered. */
  function Reply(op: Byte, data: seq<Byte>): (e: Event)
    requires IsSingleReply(op) && |data| == MAX_RESPONSE_SIZE
    ensures e.DeviceInfo? <==> op == REQ_GET_INFO
    ensures e.Health? <==> op == REQ_GET_HEALTH
    ensures e.SampleRate? <==> op == REQ_GET_SAMPLERATE
  {
    if op == REQ_GET_INFO then LidarResponses.DecodeInfo(data)
    else if op == REQ_GET_HEALTH then LidarResponses.DecodeHealth(data)
    else LidarResponses.DecodeSampleRate(data)
  }
}

=== FILE: lidar_frames.dfy ===
/** Whole responses pushed through `LIDAR_process`, one byte per call: what a
    request followed by its reply does, how a scan stream cycles, and the
    ways the decoder can get stuck. */
module LidarFrames {
  import opened Bytes
  import opened Events
  import Usart
  import opened Lidar
  import LidarResponses
  import Streams

  /** A decoder state the firmware can be in. */
  type Ready = s: State | Valid(s) witness Initial()

  /** One byte arriving on the sensor link: it is delivered to the mailbox
      and one `LIDAR_process` call follows. */
  function Arrive(s: Ready, b: Byte): (Ready, seq<Event>)
  {
    var r := Process(s.(rx := Usart.Deliver(s.rx, b)));
    (r.state, r.out)
  }

  /** A run of arrivals with no tick in between. */
  function Feed(s: State, bytes: seq<Byte>): (r: Step)
    requires Valid(s)
    ensures Valid(r.state)
  {
    var run := Streams.Run<Ready, Byte, Event>(Arrive, s, bytes);
    Step(run.0, run.1)
  }

  /** Feeding `a + b` is feeding `a`, then `b`. */
  lemma FeedAppend(s: State, a: seq<Byte>, b: seq<Byte>)
    requires Valid(s)
    ensures Feed(s, a + b).state == Feed(Feed(s, a).state, b).state
    ensures Feed(s, a + b).out == Feed(s, a).out + Feed(Feed(s, a).state, b).out
  {
    Streams.RunAppend<Ready, Byte, Event>(Arrive, s, a, b);
  }

  /** Feeding one byte is one delivery and one call. */
  lemma FeedOne(s: State, b: Byte)
    requires Valid(s)
    ensures Feed(s, [b]).state == Arrive(s, b).0 && Feed(s, [b]).out == Arrive(s, b).1
  {
    Streams.RunOne<Ready, Byte, Event>(Arrive, s, b);
  }

  /** Feeding a prefix plus one more byte. */
  lemma FeedSnoc(s: State, a: seq<Byte>, b: Byte)
    requires Valid(s)
    ensures Feed(s, a + [b]).state == Arrive(Feed(s, a).state, b).0
    ensures Feed(s, a + [b]).out == Feed(s, a).out + Arrive(Feed(s, a).state, b).1
  {
    Streams.RunSnoc<Ready, Byte, Event>(Arrive, s, a, b);
  }

  /** Feeding a non-empty run is one arrival, then the rest. */
  lemma FeedCons(s: State, bytes: seq<Byte>)
    requires Valid(s) && bytes != []
    ensures Feed(s, bytes).state == Feed(Arrive(s, bytes[0]).0, bytes[1..]).state
    ensures Feed(s, bytes).out == Arrive(s, bytes[0]).1 + Feed(Arrive(s, bytes[0]).0, bytes[1..]).out
  {
    assert bytes == [bytes[0]] + bytes[1..];
    FeedAppend(s, [bytes[0]], bytes[1..]);
    FeedOne(s, bytes[0]);
  }

  /** Nothing in a run of `Feed` ever touches the timer or the wait flag, so
      a state that is not expired stays so while bytes arrive without ticks. */
  lemma {:induction false} FeedKeepsWait(s: State, bytes: seq<Byte>)
    requires Valid(s) && !Expired(s)
    ensures Feed(s, bytes).state.timer == s.timer && Feed(s, bytes).state.timing == s.timing
    ensures Feed(s, bytes).state.request == s.request
    ensures bytes != [] ==> !Feed(s, bytes).state.rx.pending
    decreases |bytes|
  {
    if bytes != [] {
      FeedCons(s, bytes);
      ArriveDecodes(s, bytes[0]);
      FeedKeepsWait(Arrive(s, bytes[0]).0, bytes[1..]);
    }
  }

  /** Outside an expired wait, every arriving byte is taken from the mailbox
      and decoded. */
  lemma ArriveDecodes(s: State, b: Byte)
    requires Valid(s) && !Expired(s)
    ensures var r := Consume(s.(rx := Usart.Mailbox(b, false)), b);
            Arrive(s, b) == (r.state, r.out)
  {
  }

  // ---------------------------------------------------------------------------
  // The descriptor

  /** One descriptor byte moves the expected descriptor one position on. */
  lemma DescriptorStep(s: State, d: seq<Byte>, d0: Descriptor, j: nat)
    requires Valid(s) && |d| == RESP_DESC_SIZE && j < RESP_DESC_SIZE
    requires s.byteCount == j && s.desc == DescriptorAfter(d0, d, j)
    ensures DescriptorByte(s, d[j]).desc == DescriptorAfter(d0, d, j + 1)
  {
    var next := DescriptorAfter(d0, d, j + 1);
    if j == 0 {
      assert next == s.desc.(start1 := d[0]);
    } else if j == 1 {
      assert next == s.desc.(start2 := d[1]);
    } else if j == 2 {
      assert next == s.desc.(responseInfo := Word(d[2], 0, 0, 0));
    } else if j == 3 {
      assert next == s.desc.(responseInfo := s.desc.responseInfo.(lane1 := d[3]));
    } else if j == 4 {
      assert next == s.desc.(responseInfo := s.desc.responseInfo.(lane2 := d[4]));
    } else if j == 5 {
      assert next == s.desc.(responseInfo := s.desc.responseInfo.(lane3 := d[5]));
    } else {
      assert next == s.desc.(dataType := d[6]);
    }
  }

  /** After the first `j` descriptor bytes of a response, the count is `j`,
      each byte sits in its own field, and nothing was rendered. */
  lemma {:induction false} FeedDescriptorPrefix(s: State, d: seq<Byte>, j: nat)
    requires Valid(s) && !Expired(s) && s.byteCount == 0
    requires |d| == RESP_DESC_SIZE && j <= RESP_DESC_SIZE
    ensures var r := Feed(s, d[..j]);
            && r.out == []
            && r.state.byteCount == j
            && r.state.desc == DescriptorAfter(s.desc, d, j)
            && r.state.data == s.data
            && r.state.request == s.request
            && r.state.timer == s.timer && r.state.timing == s.timing
  {
    if j == 0 {
      assert DescriptorAfter(s.desc, d, 0) == s.desc;
    } else {
      FeedDescriptorPrefix(s, d, j - 1);
      assert d[..j] == d[..j - 1] + [d[j - 1]];
      FeedSnoc(s, d[..j - 1], d[j - 1]);
      var t := Feed(s, d[..j - 1]).state;
      ArriveDecodes(t, d[j - 1]);
      var u := t.(rx := Usart.Mailbox(d[j - 1], false));
      DescriptorStep(u, d, s.desc, j - 1);
      assert Arrive(t, d[j - 1]) == (DescriptorByte(u, d[j - 1]), []);
    }
  }

  /** A full descriptor: start bytes, `response_info` assembled little-endian
      from bytes 2..5, and the data type. */
  lemma FeedDescriptor(s: State, d: seq<Byte>)
    requires Valid(s) && !Expired(s) && s.byteCount == 0 && |d| == RESP_DESC_SIZE
    ensures var r := Feed(s, d);
            && r.out == []
            && r.state.byteCount == RESP_DESC_SIZE
            && r.state.desc == Descriptor(d[0], d[1], Word(d[2], d[3], d[4], d[5]), d[6])
            && r.state.data == s.data
            && r.state.request == s.request
            && r.state.timer == s.timer && r.state.timing == s.timing
  {
    FeedDescriptorPrefix(s, d, RESP_DESC_SIZE);
    assert d[..RESP_DESC_SIZE] == d;
  }

  // ---------------------------------------------------------------------------
  // The payload

  /** A payload byte that fits the buffer and does not finish the response is
      stored and counted, and nothing else happens. */
  lemma PayloadStep(s: State, b: Byte)
    requires Valid(s) && !Expired(s) && s.byteCount >= RESP_DESC_SIZE
    requires s.byteCount - RESP_DESC_SIZE < MAX_RESPONSE_SIZE
    requires s.byteCount + 1 < DeclaredLength(s.desc) + RESP_DESC_SIZE
    ensures Arrive(s, b)
            == (s.(rx := Usart.Mailbox(b, false),
                   data := s.data[s.byteCount - RESP_DESC_SIZE := b],
                   byteCount := s.byteCount + 1), [])
  {
    ArriveDecodes(s, b);
    var u := s.(rx := Usart.Mailbox(b, false));
    assert Consume(u, b) == PayloadByte(u, b);
    assert Inc32(s.byteCount) == s.byteCount + 1;
  }

  /** Writing one more byte right after a written run extends the run. */
  lemma WrittenSnoc(data: seq<Byte>, j: nat, q: seq<Byte>, b: Byte)
    requires j + |q| < |data|
    ensures Written(data, j, q)[j + |q| := b] == Written(data, j, q + [b])
  {
    var l := Written(data, j, q)[j + |q| := b];
    var r := Written(data, j, q + [b]);
    WrittenAt(data, j, q);
    WrittenAt(data, j, q + [b]);
    forall i | 0 <= i < |data|
      ensures l[i] == r[i]
    {
      if j <= i < j + |q| {
        assert r[j + (i - j)] == (q + [b])[i - j];
      } else if i == j + |q| {
        assert r[j + |q|] == (q + [b])[|q|];
      }
    }
  }

  /** Payload bytes that do not finish the response are stored in order from
      `DATA_RESPONSE[byte_count - 7]` on, and nothing is rendered. */
  lemma {:induction false} FeedPayload(s: State, p: seq<Byte>)
    requires Valid(s) && !Expired(s) && s.byteCount >= RESP_DESC_SIZE
    requires s.byteCount - RESP_DESC_SIZE + |p| <= MAX_RESPONSE_SIZE
    requires s.byteCount + |p| < DeclaredLength(s.desc) + RESP_DESC_SIZE
    ensures var r := Feed(s, p);
            && r.out == []
            && r.state.byteCount == s.byteCount + |p|
            && r.state.desc == s.desc
            && r.state.data == Written(s.data, s.byteCount - RESP_DESC_SIZE, p)
            && r.state.request == s.request
            && r.state.timer == s.timer && r.state.timing == s.timing
    decreases |p|
  {
    var j := s.byteCount - RESP_DESC_SIZE;
    if p == [] {
      assert Written(s.data, j, p) == s.data;
    } else {
      var q := p[..|p| - 1];
      var b := p[|p| - 1];
      assert p == q + [b];
      FeedPayload(s, q);
      FeedSnoc(s, q, b);
      var t := Feed(s, q).state;
      PayloadStep(t, b);
      WrittenSnoc(s.data, j, q, b);
    }
  }

  /** The byte that brings the count to `7 + declared length` completes the
      response right after it is stored. */
  lemma LastByte(s: State, b: Byte)
    requires Valid(s) && !Expired(s) && s.byteCount >= RESP_DESC_SIZE
    requires s.byteCount - RESP_DESC_SIZE < MAX_RESPONSE_SIZE
    requires s.byteCount + 1 == DeclaredLength(s.desc) + RESP_DESC_SIZE
    ensures var t := s.(rx := Usart.Mailbox(b, false),
                        data := s.data[s.byteCount - RESP_DESC_SIZE := b],
                        byteCount := s.byteCount + 1);
            Feed(s, [b]) == Complete(t)
  {
    FeedOne(s, b);
    ArriveDecodes(s, b);
    var u := s.(rx := Usart.Mailbox(b, false));
    assert Consume(u, b) == PayloadByte(u, b);
    assert Inc32(s.byteCount) == s.byteCount + 1;
    var t := u.(data := s.data[s.byteCount - RESP_DESC_SIZE := b], byteCount := s.byteCount + 1);
    assert PayloadByte(u, b) == Step(Complete(t).state, [] + Complete(t).out);
    assert [] + Complete(t).out == Complete(t).out;
  }

  /** The rest of a response, ending with the byte that completes it: the
      payload is stored in order and the completion routing runs once, on
      the last byte. */
  lemma FeedToCompletion(s: State, p: seq<Byte>)
    requires Valid(s) && !Expired(s) && s.byteCount >= RESP_DESC_SIZE && p != []
    requires s.byteCount - RESP_DESC_SIZE + |p| <= MAX_RESPONSE_SIZE
    requires s.byteCount + |p| == DeclaredLength(s.desc) + RESP_DESC_SIZE
    ensures var t := s.(rx := Usart.Mailbox(p[|p| - 1], false),
                        data := Written(s.data, s.byteCount - RESP_DESC_SIZE, p),
                        byteCount := s.byteCount + |p|);
            Feed(s, p) == Complete(t)
  {
    var q := p[..|p| - 1];
    var b := p[|p| - 1];
    assert p == q + [b];
    FeedPayload(s, q);
    var j := s.byteCount - RESP_DESC_SIZE;
    var t := Feed(s, q).state;
    LastByte(t, b);
    FeedAppend(s, q, [b]);
    WrittenSnoc(s.data, j, q, b);
    var last := t.(rx := Usart.Mailbox(b, false), data := t.data[t.byteCount - RESP_DESC_SIZE := b],
                   byteCount := t.byteCount + 1);
    var want := s.(rx := Usart.Mailbox(b, false), data := Written(s.data, j, p),
                   byteCount := s.byteCount + |p|);
    assert t.data == Written(s.data, j, q) && t.byteCount == s.byteCount + |q|;
    assert last.data == Written(s.data, j, q + [b]);
    assert last.data == want.data;
    assert last.byteCount == want.byteCount;
    assert last == want;
    assert Feed(s, p).out == [] + Complete(last).out;
  }

  /** A get_info / get_health / get_samplerate request followed by a reply of
      the declared length renders the reply from the stored payload, prompts,
      resets the command line and restarts the count. */
  lemma RequestReply(s: State, op: Byte, d: seq<Byte>, p: seq<Byte>)
    requires Valid(s) && !Expired(s) && IsSingleReply(op)
    requires |d| == RESP_DESC_SIZE && 1 <= |p| <= MAX_RESPONSE_SIZE
    requires DeclaredLength(Descriptor(d[0], d[1], Word(d[2], d[3], d[4], d[5]), d[6])) == |p|
    ensures var r := Feed(Request(s, op).state, d + p);
            && r.out == [Reply(op, Written(s.data, 0, p)), Prompt, ResetCommandLine]
            && r.state.byteCount == 0
            && r.state.request == op
  {
    var s1 := Request(s, op).state;
    FeedDescriptor(s1, d);
    FeedToCompletion(Feed(s1, d).state, p);
    FeedAppend(s1, d, p);
  }

  /** Until its last byte, a reply renders nothing. */
  lemma ReplyQuietUntilLastByte(s: State, op: Byte, d: seq<Byte>, p: seq<Byte>, k: nat)
    requires Valid(s) && !Expired(s) && IsSingleReply(op)
    requires |d| == RESP_DESC_SIZE && 1 <= |p| <= MAX_RESPONSE_SIZE
    requires DeclaredLength(Descriptor(d[0], d[1], Word(d[2], d[3], d[4], d[5]), d[6])) == |p|
    requires k < |d| + |p|
    ensures Feed(Request(s, op).state, (d + p)[..k]).out == []
  {
    var s1 := Request(s, op).state;
    if k <= |d| {
      FeedDescriptorPrefix(s1, d, k);
      assert (d + p)[..k] == d[..k];
    } else {
      FeedDescriptor(s1, d);
      assert (d + p)[..k] == d + p[..k - |d|];
      FeedAppend(s1, d, p[..k - |d|]);
      FeedPayload(Feed(s1, d).state, p[..k - |d|]);
    }
  }

  /** The get_info reply of the protocol (20 payload bytes) reproduces model,
      firmware, hardware and the serial number, the serial printed from the
      last received byte back. */
  lemma GetInfoReply(s: State, d: seq<Byte>, p: seq<Byte>)
    requires Valid(s) && !Expired(s)
    requires |d| == RESP_DESC_SIZE && |p| == 20
    requires DeclaredLength(Descriptor(d[0], d[1], Word(d[2], d[3], d[4], d[5]), d[6])) == 20
    ensures var out := Feed(Request(s, REQ_GET_INFO).state, d + p).out;
            && |out| == 3
            && out[0].DeviceInfo?
            && out[0].model == p[0] && out[0].firmwareMinor == p[1]
            && out[0].firmwareMajor == p[2] && out[0].hardware == p[3]
            && out[0].serial == seq(16, i requires 0 <= i < 16 => p[19 - i])
  {
    RequestReply(s, REQ_GET_INFO, d, p);
    var w := Written(s.data, 0, p);
    InfoOfWritten(s.data, p);
    assert Reply(REQ_GET_INFO, w) == LidarResponses.DecodeInfo(w);
  }

  /** The device-info fields of a 20-byte payload stored from index 0. */
  lemma InfoOfWritten(data: seq<Byte>, p: seq<Byte>)
    requires |data| == MAX_RESPONSE_SIZE && |p| == 20
    ensures var e := LidarResponses.DecodeInfo(Written(data, 0, p));
            && e.model == p[0] && e.firmwareMinor == p[1]
            && e.firmwareMajor == p[2] && e.hardware == p[3]
            && e.serial == seq(16, i requires 0 <= i < 16 => p[19 - i])
  {
    var w := Written(data, 0, p);
    WrittenAt(data, 0, p);
    assert forall i | 0 <= i < 20 :: w[i] == p[i] by {
      forall i | 0 <= i < 20 ensures w[i] == p[i] { assert w[0 + i] == p[i]; }
    }
    var e := LidarResponses.DecodeInfo(w);
    assert e.serial == seq(16, i requires 0 <= i < 16 => p[19 - i]);
  }

  // ---------------------------------------------------------------------------
  // Scan streams

  /** Scan mode with the declared record length of 5, positioned at a record
      boundary. */
  predicate AtScanRecord(s: State) {
    && Valid(s) && !Expired(s)
    && s.request == REQ_SCAN
    && DeclaredLength(s.desc) == SCAN_RECORD_SIZE
    && s.byteCount == RESP_DESC_SIZE
  }

  /** One 5-byte record: it lands in `DATA_RESPONSE[0..4]`, is rendered (or
      dropped) by the scan renderer, and the count is back at the boundary;
      there is no prompt and no command-line reset. */
  lemma ScanRecordStep(s: State, rec: seq<Byte>)
    requires AtScanRecord(s) && |rec| == SCAN_RECORD_SIZE
    ensures var r := Feed(s, rec);
            && AtScanRecord(r.state)
            && r.out == LidarResponses.ScanOutput(rec)
            && r.state.data == Written(s.data, 0, rec)
            && r.state.desc == s.desc
  {
    FeedToCompletion(s, rec);
    WrittenAt(s.data, 0, rec);
    assert Written(s.data, 0, rec)[..SCAN_RECORD_SIZE] == rec;
  }

  function Concat(recs: seq<seq<Byte>>): seq<Byte>
  {
    if recs == [] then [] else recs[0] + Concat(recs[1..])
  }

  /** The renderer's output for a run of records. */
  function StreamOutput(recs: seq<seq<Byte>>): (out: seq<Event>)
    requires forall i | 0 <= i < |recs| :: |recs[i]| == SCAN_RECORD_SIZE
    ensures forall e | e in out :: e.ScanPoint?
    ensures |out| <= |recs|
  {
    if recs == [] then [] else LidarResponses.ScanOutput(recs[0]) + StreamOutput(recs[1..])
  }

  /** A scan never finishes: any number of records leaves the decoder at a
      record boundary, renders exactly the accepted records, never prompts,
      and touches no byte of `DATA_RESPONSE` past the first five. */
  lemma {:induction false} ScanStream(s: State, recs: seq<seq<Byte>>)
    requires AtScanRecord(s)
    requires forall i | 0 <= i < |recs| :: |recs[i]| == SCAN_RECORD_SIZE
    ensures var r := Feed(s, Concat(recs));
            && AtScanRecord(r.state)
            && r.out == StreamOutput(recs)
            && Prompt !in r.out && ResetCommandLine !in r.out
            && r.state.data[SCAN_RECORD_SIZE..] == s.data[SCAN_RECORD_SIZE..]
    decreases |recs|
  {
    if recs != [] {
      ScanRecordStep(s, recs[0]);
      var t := Feed(s, recs[0]).state;
      ScanStream(t, recs[1..]);
      FeedAppend(s, recs[0], Concat(recs[1..]));
    }
  }

  // ---------------------------------------------------------------------------
  // Silent requests and the wait flag

  /** Stop and reset: after the wait has ticked away, the next call reports
      the completion and closes the wait, and the call after that does not
      report it again; with no byte pending it does nothing at all. Reset
      does not clear the mailbox, so a byte pending from before the request
      is still decoded then. */
  lemma SilentRequestCompletesOnce(s: State, op: Byte, k: nat)
    requires Valid(s) && IsSilent(op) && k >= WaitFor(op)
    ensures var armed := AfterTicks(Request(s, op).state, k);
            var done := Process(armed);
            && done.out == [SilentDone(op), Prompt]
            && !done.state.timing && done.state.byteCount == 0
            && (forall e | e in Process(done.state).out :: !e.SilentDone?)
            && (!done.state.rx.pending ==> Process(done.state) == Step(done.state, []))
  {
    var s1 := Request(s, op).state;
    TicksOnlyMoveTimer(s1, k);
  }

  /** Reset leaves the mailbox alone: a byte that was pending when the reset
      was sent survives the wait and its completion, and the call after the
      completion decodes it as the first descriptor byte. */
  lemma ResetKeepsPendingByte(s: State, k: nat)
    requires Valid(s) && s.rx.pending && k >= WaitFor(REQ_RESET)
    ensures var done := Process(AfterTicks(Request(s, REQ_RESET).state, k));
            && done.state.rx.pending && done.state.byteCount == 0
            && Process(done.state).state.byteCount == 1
  {
    var s1 := Request(s, REQ_RESET).state;
    TicksOnlyMoveTimer(s1, k);
  }

  /** While the wait is still counting down, a received byte is decoded like
      any other: the decoder does not ignore the sensor during a silent
      request, and the byte lands in its descriptor field without a word. */
  lemma SilentWindowDecodes(s: State, b: Byte)
    requires Valid(s) && s.timing && s.timer > 0 && s.byteCount < RESP_DESC_SIZE
    ensures var r := Feed(s, [b]);
            && r.state.byteCount == s.byteCount + 1
            && r.state.desc == DescriptorField(s.desc, s.byteCount, b)
            && r.state.timer == s.timer && r.state.timing == s.timing
            && r.state.request == s.request
            && r.out == []
  {
    FeedOne(s, b);
  }

  /** A stalled decoder stays stalled: bytes and ticks change nothing it
      counts and produce no output, for ever. */
  lemma {:induction false} StallIsPermanent(s: State, bytes: seq<Byte>, k: nat)
    requires Stalled(s) && Valid(s)
    ensures var r := Feed(s, bytes);
            && Stalled(r.state) && r.out == []
            && r.state.byteCount == s.byteCount && r.state.desc == s.desc
            && r.state.data == s.data
    ensures Stalled(AfterTicks(s, k))
    decreases |bytes|
  {
    TicksOnlyMoveTimer(s, k);
    if bytes != [] {
      FeedCons(s, bytes);
      StallIsPermanent(Arrive(s, bytes[0]).0, bytes[1..], 0);
    }
  }

  /** How the stall arises: any non-silent request sent while a stop or reset
      wait is running inherits the wait flag, and once the wait ticks away
      the decoder is stalled. */
  lemma RequestDuringWaitStalls(s: State, silent: Byte, op: Byte, k: nat)
    requires Valid(s) && IsSilent(silent) && IsOpcode(op) && !IsSilent(op)
    requires k >= WaitFor(silent)
    ensures Stalled(AfterTicks(Request(Request(s, silent).state, op).state, k))
  {
    var s2 := Request(Request(s, silent).state, op).state;
    TicksOnlyMoveTimer(s2, k);
  }

  /** A byte that arrives once the count has passed the end of the declared
      response is stored one place further on (or, past the 1080-byte
      buffer, reported as an overrun) and counted; the completion test
      cannot fire again, since the count only moves away from
      `7 + declared length`. */
  lemma PastEndByte(s: State, b: Byte)
    requires Valid(s) && !Expired(s)
    requires s.byteCount >= DeclaredLength(s.desc) + RESP_DESC_SIZE
    requires s.byteCount + 1 < U32
    ensures var k := s.byteCount - RESP_DESC_SIZE;
            var r := Arrive(s, b);
            && r.0 == s.(rx := Usart.Mailbox(b, false), byteCount := s.byteCount + 1,
                         data := if k < MAX_RESPONSE_SIZE then s.data[k := b] else s.data)
            && r.1 == if k < MAX_RESPONSE_SIZE then [] else [Overrun(k)]
  {
    ArriveDecodes(s, b);
    var u := s.(rx := Usart.Mailbox(b, false));
    assert Consume(u, b) == PayloadByte(u, b);
    assert Inc32(s.byteCount) == s.byteCount + 1;
  }

  /** Once the count is at or past the end of the declared response, no run
      of bytes completes it again: the count rises by one per byte, nothing
      but overruns is ever reported, and the descriptor and the outstanding
      request stay as they are. */
  lemma {:induction false} PastEndKeepsCounting(s: State, bytes: seq<Byte>)
    requires Valid(s) && !Expired(s)
    requires s.byteCount >= DeclaredLength(s.desc) + RESP_DESC_SIZE
    requires s.byteCount + |bytes| < U32
    ensures var r := Feed(s, bytes);
            && r.state.byteCount == s.byteCount + |bytes|
            && (forall e | e in r.out :: e.Overrun?)
            && r.state.desc == s.desc && r.state.request == s.request
    decreases |bytes|
  {
    if bytes != [] {
      FeedCons(s, bytes);
      PastEndByte(s, bytes[0]);
      PastEndKeepsCounting(Arrive(s, bytes[0]).0, bytes[1..]);
    }
  }

  /** A declared length of 0 never completes: the completion test only runs
      after a payload byte, when the count is already past 7. Every later
      byte is stored further on, running past the buffer eventually. */
  lemma ZeroLengthNeverCompletes(s: State, bytes: seq<Byte>)
    requires Valid(s) && !Expired(s) && s.byteCount >= RESP_DESC_SIZE
    requires DeclaredLength(s.desc) == 0
    requires s.byteCount + |bytes| < U32
    ensures var r := Feed(s, bytes);
            && r.state.byteCount == s.byteCount + |bytes|
            && (forall e | e in r.out :: e.Overrun?)
            && r.state.desc == s.desc
  {
    PastEndKeepsCounting(s, bytes);
  }

  /** Express and force scan replies are never closed: their completion
      leaves the count at `7 + length`, so whatever the declared length, the
      next byte is stored at `DATA_RESPONSE[length]` while that lies in the
      buffer and is an overrun after it, and no later byte completes the
      response again. */
  lemma UnimplementedScanKeepsCounting(s: State, bytes: seq<Byte>)
    requires Valid(s) && !Expired(s)
    requires s.request == REQ_EXPRESS_SCAN || s.request == REQ_FORCE_SCAN
    requires s.byteCount == DeclaredLength(s.desc) + RESP_DESC_SIZE
    requires bytes != [] && s.byteCount + |bytes| < U32
    ensures var n := DeclaredLength(s.desc);
            var first := Feed(s, [bytes[0]]);
            && first.state.byteCount == s.byteCount + 1
            && (n < MAX_RESPONSE_SIZE ==> first.state.data == s.data[n := bytes[0]] && first.out == [])
            && (n >= MAX_RESPONSE_SIZE ==> first.state.data == s.data && first.out == [Overrun(n)])
    ensures var r := Feed(s, bytes);
            && r.state.byteCount == s.byteCount + |bytes|
            && (forall e | e in r.out :: e.Overrun?)
            && r.state.request == s.request
  {
    FeedOne(s, bytes[0]);
    PastEndByte(s, bytes[0]);
    PastEndKeepsCounting(s, bytes);
  }
}

=== FILE: lidar_responses.dfy ===
/** The renderers `LIDAR_RES_scan`, `LIDAR_RES_get_info`, `LIDAR_RES_get_health`
    and `LIDAR_RES_get_samplerate`: each reads fixed positions of the response
    buffer and reports the decoded fields. The formatted text is not modelled;
    the events carry the numbers the text shows. */
module LidarResponses {
  import opened Bytes
  import opened Events

  /** `((b0 & 0x3) << 1) | (b1 & 0x1)`: the three bits the scan renderer tests. */
  function CheckBits(b0: Byte, b1: Byte): (c: nat)
    ensures c < 8
    ensures c / 2 == b0 % 4 && c % 2 == b1 % 2
  {
    (b0 % 4) * 2 + b1 % 2
  }

  /** What the scan renderer makes of one 5-byte record. */
  datatype ScanRecord =
    | Accepted(quality: nat, angle: nat, distance: nat)
    | Dropped(check: nat)

  /** One scan record. Quality is `b0 >> 2`, the angle `(b1 >> 1) + (b2 << 7)`
      and the distance `b3 + (b4 << 8)`; the record is kept exactly when the
      check bits read 5 or 6. */
  function DecodeScan(d: seq<Byte>): (r: ScanRecord)
    requires |d| >= 5
    ensures r.Accepted? <==> CheckBits(d[0], d[1]) == 5 || CheckBits(d[0], d[1]) == 6
    ensures r.Dropped? ==> r.check == CheckBits(d[0], d[1])
    ensures r.Accepted? ==> r.quality < 64 && r.angle < 0x8000 && r.distance < 0x1_0000
    ensures r.Accepted? ==> r.quality * 4 + d[0] % 4 == d[0]
    ensures r.Accepted? ==> r.angle % 128 == d[1] / 2 && r.angle / 128 == d[2]
    ensures r.Accepted? ==> r.distance % 256 == d[3] && r.distance / 256 == d[4]
  {
    var check := CheckBits(d[0], d[1]);
    if check == 5 || check == 6 then
      Accepted(d[0] / 4, (d[1] as int) / 2 + (d[2] as int) * 128, LE16(d[3], d[4]))
    else
      Dropped(check)
  }

  /** The console output of one scan record: one point, or nothing. */
  function ScanOutput(d: seq<Byte>): (out: seq<Event>)
    requires |d| >= 5
    ensures |out| <= 1
    ensures forall e | e in out :: e.ScanPoint?
    ensures |out| == 1 <==> DecodeScan(d).Accepted?
  {
    match DecodeScan(d)
    case Accepted(q, a, dist) => [ScanPoint(q, a, dist)]
    case Dropped(_) => []
  }

  /** A scan record laid out as the sensor sends it (lidar.c:516-521):
      quality in the top six bits of byte 0 above `~start` and `start`;
      the low seven angle bits above the check bit (always 1) in byte 1;
      the high angle bits in byte 2; the distance little-endian in bytes 3-4. */
  function EncodeScan(quality: nat, start: bool, angle: nat, distance: nat): (d: seq<Byte>)
    requires quality < 64 && angle < 0x8000 && distance < 0x1_0000
    ensures |d| == 5
  {
    [ quality * 4 + (if start then 1 else 2),
      (angle % 128) * 2 + 1,
      angle / 128,
      distance % 256,
      distance / 256 ]
  }

  /** Records that do not start a new revolution decode back to the sample
      they carry. */
  lemma ScanRoundTrip(quality: nat, angle: nat, distance: nat)
    requires quality < 64 && angle < 0x8000 && distance < 0x1_0000
    ensures DecodeScan(EncodeScan(quality, false, angle, distance))
            == Accepted(quality, angle, distance)
  {
    var d := EncodeScan(quality, false, angle, distance);
    assert CheckBits(d[0], d[1]) == 5;
    assert d[1] / 2 == angle % 128;
  }

  /** A well-formed record with the start flag set reads as check pattern 3,
      which the renderer drops: the first sample of every revolution is lost. */
  lemma StartRecordsDropped(quality: nat, angle: nat, distance: nat)
    requires quality < 64 && angle < 0x8000 && distance < 0x1_0000
    ensures DecodeScan(EncodeScan(quality, true, angle, distance)) == Dropped(3)
  {
    var d := EncodeScan(quality, true, angle, distance);
    assert d[0] % 4 == 1;
    assert d[1] % 2 == 1;
  }

  /** Pattern 6 (both start bits set, check bit clear) is malformed for the
      sensor, yet the renderer keeps it. */
  lemma MalformedPatternAccepted(d: seq<Byte>)
    requires |d| >= 5 && d[0] % 4 == 3 && d[1] % 2 == 0
    ensures DecodeScan(d).Accepted?
  {
  }

  /** The status byte's meaning: 0 good, 1 warning, 2 error, anything else
      unknown. */
  function StatusOf(b: Byte): (s: HealthStatus)
    ensures s == Good <==> b == 0
    ensures s == Warning <==> b == 1
    ensures s == Faulted <==> b == 2
    ensures s == UnknownStatus <==> b > 2
  {
    if b == 0 then Good else if b == 1 then Warning else if b == 2 then Faulted else UnknownStatus
  }

  /** `LIDAR_RES_get_info`: model, firmware (printed minor first), hardware,
      and the 16 serial bytes in print order, from the last one received
      (byte 19) back to byte 4. */
  function DecodeInfo(d: seq<Byte>): (e: Event)
    requires |d| >= 20
    ensures e.DeviceInfo?
    ensures e.model == d[0] && e.firmwareMinor == d[1] && e.firmwareMajor == d[2]
    ensures e.hardware == d[3]
    ensures |e.serial| == 16
    ensures forall i | 0 <= i < 16 :: e.serial[i] == d[19 - i]
  {
    DeviceInfo(d[0], d[1], d[2], d[3], seq(16, i requires 0 <= i < 16 => d[19 - i]))
  }

  /** `LIDAR_RES_get_health`: the status comes from byte 0, and the error code
      is little-endian over bytes 0 and 1, so byte 0 feeds both. */
  function DecodeHealth(d: seq<Byte>): (e: Event)
    requires |d| >= 2
    ensures e.Health? && e.status == StatusOf(d[0])
    ensures e.errorCode < 0x1_0000
    ensures e.errorCode % 256 == d[0] && e.errorCode / 256 == d[1]
  {
    Health(StatusOf(d[0]), LE16(d[0], d[1]))
  }

  /** The error line is suppressed exactly when bytes 0 and 1 are both zero;
      since byte 0 feeds the code, every status other than good prints one. */
  lemma HealthErrorLine(d: seq<Byte>)
    requires |d| >= 2
    ensures DecodeHealth(d).errorCode == 0 <==> d[0] == 0 && d[1] == 0
    ensures DecodeHealth(d).status != Good ==> DecodeHealth(d).errorCode != 0
  {
  }

  /** `LIDAR_RES_get_samplerate`: two little-endian 16-bit durations. */
  function DecodeSampleRate(d: seq<Byte>): (e: Event)
    requires |d| >= 4
    ensures e.SampleRate?
    ensures e.standard < 0x1_0000 && e.standard % 256 == d[0] && e.standard / 256 == d[1]
    ensures e.express < 0x1_0000 && e.express % 256 == d[2] && e.express / 256 == d[3]
  {
    SampleRate(LE16(d[0], d[1]), LE16(d[2], d[3]))
  }

  /** Two 16-bit durations sent little-endian are reported unchanged. */
  lemma SampleRateRoundTrip(standard: nat, express: nat)
    requires standard < 0x1_0000 && express < 0x1_0000
    ensures DecodeSampleRate([standard % 256, standard / 256, express % 256, express / 256])
            == SampleRate(standard, express)
  {
  }
}

=== FILE: streams.dfy ===
/** A machine driven one input at a time: each input moves the state on and
    may emit outputs. The firmware's components are all of this shape (a
    byte arriving on a serial link followed by one call of the component's
    handler), so runs of inputs and how they split are stated once here. */
module Streams {

  /** The state after `inputs`, one after another, and everything emitted on
      the way, in order. */
  function Run<S, I, O>(step: (S, I) -> (S, seq<O>), s: S, inputs: seq<I>): (r: (S, seq<O>))
    ensures inputs == [] ==> r == (s, [])
    decreases |inputs|
  {
    if inputs == [] then (s, [])
    else
      var first := step(s, inputs[0]);
      var rest := Run(step, first.0, inputs[1..]);
      (rest.0, first.1 + rest.1)
  }

  /** Running `a + b` is running `a` and then `b` from where `a` left off. */
  lemma {:induction false} RunAppend<S, I, O>(step: (S, I) -> (S, seq<O>), s: S, a: seq<I>, b: seq<I>)
    ensures Run(step, s, a + b).0 == Run(step, Run(step, s, a).0, b).0
    ensures Run(step, s, a + b).1 == Run(step, s, a).1 + Run(step, Run(step, s, a).0, b).1
    decreases |a|
  {
    if a == [] {
      assert a + b == b;
    } else {
      var first := step(s, a[0]);
      assert (a + b)[0] == a[0];
      assert (a + b)[1..] == a[1..] + b;
      var restA := Run(step, first.0, a[1..]);
      RunAppend(step, first.0, a[1..], b);
      assert first.1 + (restA.1 + Run(step, restA.0, b).1)
          == (first.1 + restA.1) + Run(step, restA.0, b).1;
    }
  }

  /** A single input is a single step. */
  lemma RunOne<S, I, O>(step: (S, I) -> (S, seq<O>), s: S, x: I)
    ensures Run(step, s, [x]) == step(s, x)
  {
    assert [x][1..] == [];
    assert step(s, x).1 + [] == step(s, x).1;
  }

  /** Running a prefix and then one more input. */
  lemma RunSnoc<S, I, O>(step: (S, I) -> (S, seq<O>), s: S, a: seq<I>, x: I)
    ensures Run(step, s, a + [x]).0 == step(Run(step, s, a).0, x).0
    ensures Run(step, s, a + [x]).1 == Run(step, s, a).1 + step(Run(step, s, a).0, x).1
  {
    RunAppend(step, s, a, [x]);
    RunOne(step, Run(step, s, a).0, x);
  }
}

=== FILE: timer.dfy ===
/** The 1 ms system tick's only job in this core: count `lidar_timer` down to
    zero and stop there. */
module Timer {

  /** One tick: `if (lidar_timer > 0) lidar_timer--;` */
  function Tick(t: nat): (r: nat)
    ensures r <= t
    ensures t > 0 ==> r + 1 == t
  {
    if t > 0 then t - 1 else 0
  }

  /** `k` ticks in a row. */
  function Ticks(t: nat, k: nat): (r: nat)
  {
    if k == 0 then t else Ticks(Tick(t), k - 1)
  }

  /** After `k` ticks from `t` the timer reads `max(0, t - k)`: it drops by one
      per tick and never goes below zero. */
  lemma {:induction false} TicksSaturate(t: nat, k: nat)
    ensures Ticks(t, k) == if k <= t then t - k else 0
  {
    if k > 0 {
      TicksSaturate(Tick(t), k - 1);
    }
  }
}

=== FILE: usart.dfy ===
/** The single-slot receive mailbox each serial link interrupt fills: the
    handler stores the received byte and raises a flag; the polling loop
    clears the flag and reads the byte. A byte that arrives before the
    previous one was taken overwrites it (last write wins), so the older
    byte is lost. */
module Usart {
  import opened Bytes

  datatype Mailbox = Mailbox(value: Byte, pending: bool)

  /** Power-on state: both globals are zero-initialised. */
  const Empty: Mailbox := Mailbox(0, false)

  /** The receive interrupt: store the byte, raise the flag. */
  function Deliver(m: Mailbox, b: Byte): (r: Mailbox)
    ensures r.pending && r.value == b
  {
    Mailbox(b, true)
  }

  /** The consumer clears the flag; the byte stays readable. */
  function Take(m: Mailbox): (r: Mailbox)
    ensures !r.pending && r.value == m.value
  {
    m.(pending := false)
  }

  /** Last write wins: a byte delivered on top of a pending one replaces it,
      and nothing of the earlier byte survives. */
  lemma DeliverOverwrites(m: Mailbox, a: Byte, b: Byte)
    ensures Deliver(Deliver(m, a), b) == Deliver(m, b)
    ensures a != b ==> Deliver(Deliver(m, a), b).value != a
  {
  }
}
